=== FILE: README.md ===
# Plant store frontend: the catalog hook, the filter panel, the home page, the plant card and the add-plant form

This project models, in Dafny, the logic at the heart of the plant store's
React frontend:

- **`usePlants`** (`UsePlants`): how a filter record becomes the query string
  of a catalog fetch (which keys are sent, in what order, how an array of
  categories is joined). The query is serialised exactly as
  `URLSearchParams.toString` does it: UTF-8, then the
  `application/x-www-form-urlencoded` byte serializer of the WHATWG URL
  Standard (`FormUrlEncoding`). The model also covers what each completed
  request does to `plants`, `loading` and `error`: a fetch replaces the
  list, an add prepends, a purchase replaces by id. It says which messages
  end up in `error`, and how interleaved requests behave when nothing
  discards a stale response.
- **`SearchAndFilter`**: the panel's initial state taken from the page's
  filters, toggling a category, the stock select, *Clear*, and the
  active-filter badge.
- **`HomePage`**: the shallow merge of the panel's calls into the page's
  filter record, the purchase notice, and the choice between error page,
  skeleton, empty state and grid, with the loading overlay.
- **`PlantCard`**: the stock test, the Buy guard, the difficulty badge
  style, the category chips and the stock label.
- **`AddPlantForm`**: the validation rules and their messages, the payload a
  valid submit sends, the reset after a successful add, and the editing of
  the list of category fields.

JavaScript values are modelled where they matter:

- A key of an object literal can be missing, hold `undefined`, or hold a
  value (`JsValues.Slot`). This is what makes `{ ...prev, ...options }`
  exact.
- String truthiness (`if (s)`) is explicit.
- `trim` uses the ECMAScript whitespace set.
- `length` counts UTF-16 code units.
- Numbers are `NaN`, finite or infinite.

The JavaScript number parsers (`Number`, `parseFloat`, `parseInt`) are
parameters of the form model, not definitions.

Three design choices a reader might expect are not what the code does, and
the model follows the code:

- **Category order.** The categories are not sorted before they are sent;
  they are joined in the order they were ticked.
- **Search text.** The search term is not trimmed; it is sent whenever it
  is a non-empty string, whitespace only included.
- **Overlapping requests.** No stale response is discarded: the response of
  an older request that arrives after a newer one is applied like any other.
  Every completion turns `loading` off (`UsePlants.LoadingFollowsLastEvent`).
  The latest successful completion decides the list
  (`UsePlants.LatestSuccessfulFetchWins`,
  `UsePlants.StaleListingUndoesPurchase`); failures leave it alone
  (`UsePlants.FailuresKeepPlants`). `error` holds the message of the latest
  failure since the latest start, even if a success came after it
  (`UsePlants.ErrorIsLatestFailure`).

## Model

| member | source | states |
|---|---|---|
| JsValues.MessageOr | frontend/src/hooks/usePlants.js:64 | the message-or-fallback choice: the result is the message when it is a non-empty string, the fallback otherwise |
| JsValues.TrimStartDropsLeadingRun | frontend/src/components/AddPlantForm.jsx:20 | the result is a suffix of the input, everything cut off is ECMAScript whitespace, and the result does not start with whitespace |
| JsValues.TrimEndDropsTrailingRun | frontend/src/components/AddPlantForm.jsx:20 | the result is a prefix of the input, everything cut off is whitespace, and the result does not end with whitespace |
| JsValues.BlankIffAllWhitespace | frontend/src/components/AddPlantForm.jsx:20 | a string trims to empty exactly when every character in it is ECMAScript whitespace |
| JsValues.Utf16Length | frontend/src/components/AddPlantForm.jsx:22 | `length` counts UTF-16 code units: at least one and at most two per character, zero only for the empty string, exactly the number of characters when all lie in the Basic Multilingual Plane, and a single character counts 1, or 2 outside that plane |
| JsValues.Utf16LengthAppend | frontend/src/components/AddPlantForm.jsx:22 | the length of a concatenation is the sum of the lengths, so with the one-character case the length of any string is fixed |
| JsValues.NatToDecimal | frontend/src/components/PlantCard.jsx:117 | the decimal text of a quantity is non-empty, all digits, and has no leading zero |
| JsValues.DecimalRoundTrip | frontend/src/components/PlantCard.jsx:117 | the decimal text of a quantity reads back as the same number |
| FormUrlEncoding.Utf8RoundTrip | frontend/src/hooks/usePlants.js:32 | the UTF-8 bytes that `URLSearchParams` percent-encodes decode back to the original string |
| FormUrlEncoding.EncodeByte | frontend/src/hooks/usePlants.js:32 | an encoded byte never contains `&` or `=`, so an encoded name or value cannot break the query apart |
| FormUrlEncoding.EncodeRoundTrip | frontend/src/hooks/usePlants.js:32 | percent-decoding then UTF-8-decoding an encoded string gives back exactly that string |
| FormUrlEncoding.Serialize | frontend/src/hooks/usePlants.js:32 | the serialised query is empty exactly when there are no parameters, which is when the URL gets no `?` |
| FormUrlEncoding.ParseSerialize | frontend/src/hooks/usePlants.js:15-32 | parsing the serialised query gives back the same parameter list, names, values and order included |
| UsePlants.QueryParams | frontend/src/hooks/usePlants.js:15-30 | at most three parameters, appended in the order search, category, inStock |
| UsePlants.QueryReadsBack | frontend/src/hooks/usePlants.js:17-30 | the server reads `search` only for a non-empty string, `category` whenever it is truthy (an empty array too), and `inStock` whenever it is not undefined; no other name is sent |
| UsePlants.UrlCarriesQuery | frontend/src/hooks/usePlants.js:32 | the URL is the bare `/plants` endpoint exactly when nothing is sent; otherwise its query parses back to the parameter list |
| UsePlants.NoFiltersBareUrl | frontend/src/hooks/usePlants.js:112-114 | the fetch on mount, which has no filters, goes to the bare listing endpoint |
| UsePlants.CategoryListRecoverable | frontend/src/hooks/usePlants.js:20-22 | if no category name contains a comma, splitting the joined `category` value gives back the selection, in order |
| UsePlants.EmptyCategoryArraySent | frontend/src/hooks/usePlants.js:20-22 | an empty category array is truthy, so `category` is still sent, with the empty string as its value |
| UsePlants.Begin | frontend/src/hooks/usePlants.js:11-12 | an operation starts with `loading` on and `error` cleared, and the list untouched |
| UsePlants.FetchFailure | frontend/src/hooks/usePlants.js:35-42 | a non-2xx answer reports the fixed `Failed to fetch plants`, and a thrown error keeps its own message |
| UsePlants.ListOf | frontend/src/hooks/usePlants.js:40 | the list is the body's `data` when present and the empty list when it is missing |
| UsePlants.FetchDone | frontend/src/hooks/usePlants.js:35-46 | success replaces the list with `data` (or an empty list) and keeps `error`; failure keeps the list and records the message; `loading` ends off |
| UsePlants.MutationFailure | frontend/src/hooks/usePlants.js:62-65 | a non-2xx add or purchase reports the server's message whenever it is non-empty, and the fixed message otherwise; a thrown error keeps its own message |
| UsePlants.AddDone | frontend/src/hooks/usePlants.js:62-75 | success puts the new plant in front of the list and returns it; failure keeps the list, records the message and rethrows it |
| UsePlants.ReplaceById | frontend/src/hooks/usePlants.js:99-101 | the list keeps its length; every entry with the id becomes the returned plant, and every other entry is unchanged |
| UsePlants.ReplaceUnknownId | frontend/src/hooks/usePlants.js:99-101 | a purchase of an id the list does not hold leaves the list as it is |
| UsePlants.ReplaceIdempotent | frontend/src/hooks/usePlants.js:99-101 | applying the same purchase result twice gives the same list as applying it once |
| UsePlants.ReplaceKeepsIdPositions | frontend/src/hooks/usePlants.js:99-101 | when the returned plant keeps its id, the positions that hold that id do not change |
| UsePlants.PurchaseRequestOf | frontend/src/hooks/usePlants.js:78-89 | the purchase goes to `/plants/<id>/purchase` with the given quantity, or 1 when none is given |
| UsePlants.PurchaseDone | frontend/src/hooks/usePlants.js:91-109 | success replaces the plant by id and returns the whole body; failure keeps the list, records the message and rethrows it |
| UsePlants.LoadingFollowsLastEvent | frontend/src/hooks/usePlants.js:10-110 | across interleaved requests, `loading` is on exactly when the latest event is a start |
| UsePlants.StepError | frontend/src/hooks/usePlants.js:10-110 | a start clears `error`, a failure records its message, and a success leaves `error` alone |
| UsePlants.NoFailureNoError | frontend/src/hooks/usePlants.js:10-110 | if no request has failed since the latest start, `error` is null |
| UsePlants.ErrorIsLatestFailure | frontend/src/hooks/usePlants.js:10-110 | after the latest start, `error` holds the latest failure's message, even if a later request succeeded |
| UsePlants.FailuresKeepPlants | frontend/src/hooks/usePlants.js:10-110 | starts and failed completions never change the list |
| UsePlants.LatestSuccessfulFetchWins | frontend/src/hooks/usePlants.js:35-40 | once a fetch completes successfully, the list is its listing until another request succeeds, whichever was issued later |
| UsePlants.StaleListingUndoesPurchase | frontend/src/hooks/usePlants.js:99-101 | a listing issued before a purchase but delivered after it overwrites the purchased plant with the stale one |
| SearchAndFilter.InitialPanel | frontend/src/components/SearchAndFilter.jsx:6-13 | the panel starts with its filter section collapsed |
| SearchAndFilter.InitialPanelMirrorsFilters | frontend/src/components/SearchAndFilter.jsx:6-12 | the panel starts from the page's search term (or empty) and exactly the page's stock filter |
| SearchAndFilter.InitialSelection | frontend/src/components/SearchAndFilter.jsx:7-11 | the panel starts with nothing ticked exactly when the page sends no category or an empty array; an array is taken as it is and a non-empty name becomes a one-name list |
| SearchAndFilter.InitialSelectionSameQuery | frontend/src/components/SearchAndFilter.jsx:7-11 | whenever the page sends a non-empty array or a non-empty name, the initial selection is non-empty and re-sending it gives the same `category` value |
| SearchAndFilter.RemoveAll | frontend/src/components/SearchAndFilter.jsx:29 | unticking keeps exactly the entries that differ from the name, so no copy of it survives |
| SearchAndFilter.RemoveAllCounts | frontend/src/components/SearchAndFilter.jsx:29 | unticking keeps every other entry as often as before and drops every copy of the name |
| SearchAndFilter.ToggleEffect | frontend/src/components/SearchAndFilter.jsx:25-35 | a selected name is removed entirely; an unselected one is appended at the end; the name is selected afterwards exactly when it was not before |
| SearchAndFilter.ToggleTwiceRestores | frontend/src/components/SearchAndFilter.jsx:25-35 | ticking then unticking a name restores the selection, order included |
| SearchAndFilter.ToggleKeepsDistinct | frontend/src/components/SearchAndFilter.jsx:25-35 | toggling never creates a duplicate in the selection |
| SearchAndFilter.EmittedKeysPresent | frontend/src/components/SearchAndFilter.jsx:36-47 | both filter keys are always present in what the panel sends; `category` is undefined exactly when the selection is empty |
| SearchAndFilter.StockSelectRoundTrip | frontend/src/components/SearchAndFilter.jsx:145-148 | the three select options and the three stock-filter states correspond one to one |
| SearchAndFilter.CountTrue | frontend/src/components/SearchAndFilter.jsx:91 | the result is the number of true flags, so it is at most the number of flags and positive exactly when some flag is true |
| SearchAndFilter.BadgeMatchesActive | frontend/src/components/SearchAndFilter.jsx:58-93 | the badge counts at most three filters, and it is positive exactly when the panel reports active filters |
| SearchAndFilter.ClearedPanelInactive | frontend/src/components/SearchAndFilter.jsx:50-58 | after Clear the panel has no selection, no stock filter and no active filter, so no badge; the corrected Clear leaves the panel in the same state |
| HomePage.MergeEmpty | frontend/src/pages/HomePage.jsx:34-40 | merging `{}` changes nothing, and merging into `{}` gives the options |
| HomePage.MergeLaws | frontend/src/pages/HomePage.jsx:34-40 | merging the same options twice is merging them once, and consecutive merges compose |
| HomePage.HandleSearchIsMerge | frontend/src/pages/HomePage.jsx:26-32 | a search changes only `search`; the category and stock filters are kept |
| HomePage.CategoryChangeQuery | frontend/src/components/SearchAndFilter.jsx:25-39 | after ticking a category, the panel's selection is the toggled list and its stock filter is unchanged; the fetch sends the new selection joined in order, or no category at all, keeps the page's search, and sends the panel's stock filter |
| HomePage.StockChangeQuery | frontend/src/components/SearchAndFilter.jsx:42-48 | after the select changes, the panel holds the chosen stock filter and keeps its selection; the fetch sends the chosen stock filter (none for All Plants) together with the panel's selection |
| HomePage.ClearKeepsFilters | frontend/src/components/SearchAndFilter.jsx:50-56 | after Clear the page's record has an empty search, but its category and stock filters are unchanged |
| HomePage.ClearStillSendsFilters | frontend/src/components/SearchAndFilter.jsx:54-55 | the fetch after Clear still sends the old category and stock filters, and its URL is not bare if either was set |
| HomePage.ClearStillFiltersExample | frontend/src/components/SearchAndFilter.jsx:55 | with "indoor" selected and in-stock on, the fetch after Clear still asks for `category=indoor` and `inStock=true` |
| HomePage.ClearIntendedUnfilters | frontend/src/components/SearchAndFilter.jsx:50-56 | with both keys sent as undefined, the fetch after Clear goes to the bare listing endpoint, whatever was set before |
| HomePage.NoticeAfterPurchase | frontend/src/pages/HomePage.jsx:42-53 | a successful purchase always shows a non-empty notice, which is the server's message when it is non-empty and `Plant purchased successfully!` otherwise; a failed one leaves the notice as it was |
| HomePage.BuyFromCard | frontend/src/pages/HomePage.jsx:42-53 | Buy on an in-stock card that succeeds patches exactly that plant's entries and shows a notice; an out-of-stock card or a failed purchase changes neither the list nor the notice |
| HomePage.RenderCases | frontend/src/pages/HomePage.jsx:55-142 | exactly one of error page, skeleton, empty state and grid is drawn, chosen from `error`, `loading` and whether the list is empty; with a non-empty list the error is not shown; the error page shows the `error` message itself |
| HomePage.OverlayOverGrid | frontend/src/pages/HomePage.jsx:145 | the loading overlay is shown exactly while a request runs over a non-empty list, so it always covers the grid |
| HomePage.EmptyHintFollowsFilters | frontend/src/pages/HomePage.jsx:131-133 | the empty state suggests changing the filters exactly when a search term or a non-empty category narrows the list |
| PlantCard.PurchaseCall | frontend/src/components/PlantCard.jsx:18-22 | a purchase call happens exactly when there is a handler and the quantity is positive, and it is always for one unit of this plant |
| PlantCard.BuyButtonMatchesGuard | frontend/src/components/PlantCard.jsx:119-127 | the Buy button is drawn exactly when clicking it would buy |
| PlantCard.DifficultyStylesDistinct | frontend/src/components/PlantCard.jsx:24-35 | Easy gets the green style, Medium the yellow one and Hard the red one, all three different, and anything else, or no difficulty, gets the grey default |
| PlantCard.ChipsAccountForAll | frontend/src/components/PlantCard.jsx:93-105 | at most two chips show the first categories, and the "+N more" chip counts exactly the rest |
| PlantCard.StockLabelShowsQuantity | frontend/src/components/PlantCard.jsx:117 | an in-stock label is the quantity's digits (which read back as the quantity) followed by "in stock"; otherwise it is "Out of Stock" |
| AddPlantForm.Keep | frontend/src/components/AddPlantForm.jsx:38 | the filter keeps only entries that pass, keeps every entry that passes, and never grows the list |
| AddPlantForm.KeepAppend | frontend/src/components/AddPlantForm.jsx:38 | filtering distributes over concatenation, so the kept categories stay in their order |
| AddPlantForm.KeepCounts | frontend/src/components/AddPlantForm.jsx:38 | each non-blank category is kept as many times as it occurs, and each blank one is dropped |
| AddPlantForm.KeepIdempotent | frontend/src/components/AddPlantForm.jsx:57 | filtering the already-filtered categories again changes nothing |
| AddPlantForm.ValidateRecordsEachFailure | frontend/src/components/AddPlantForm.jsx:17-48 | the error object has one entry per failing rule and no other, each with that rule's message |
| AddPlantForm.NameRule | frontend/src/components/AddPlantForm.jsx:20-24 | the name fails exactly when it is blank or longer than 100 UTF-16 units (exactly 100 passes); the message says which |
| AddPlantForm.NumberRules | frontend/src/components/AddPlantForm.jsx:26-36 | the price passes exactly when it is non-empty, a number, and not negative, so zero passes; a passing quantity has a whole-number value; an empty field fails with the required message and any other failure with the invalid message |
| AddPlantForm.HasTextIffNonWhitespace | frontend/src/components/AddPlantForm.jsx:38 | `cat.trim()` is truthy exactly when some character of the field is not whitespace |
| AddPlantForm.CategoriesRule | frontend/src/components/AddPlantForm.jsx:38-41 | the categories pass exactly when some field has text after trimming |
| AddPlantForm.ValidateFlagsFailingRules | frontend/src/components/AddPlantForm.jsx:17-45 | each field is flagged exactly when its own rule, stated independently, fails |
| AddPlantForm.ValidIffAllRules | frontend/src/components/AddPlantForm.jsx:47-48 | the form is valid exactly when all five rules hold |
| AddPlantForm.SubmitSendsOnlyValid | frontend/src/components/AddPlantForm.jsx:51-63 | nothing is sent unless the form is valid; the payload has the typed text, the parsed numbers, and at least one category, non-blank, untrimmed and in order |
| AddPlantForm.SubmitDoneResets | frontend/src/components/AddPlantForm.jsx:65-80 | a successful add resets the fields and errors and closes the modal; a failed one keeps everything the user typed |
| AddPlantForm.InitialFormInvalid | frontend/src/components/AddPlantForm.jsx:6-14 | the opening form fails exactly the name, price, quantity and categories rules, and not the description rule |
| AddPlantForm.LauncherOnlyWhenModal | frontend/src/components/AddPlantForm.jsx:104-113 | only the modal form ever collapses to the launcher button: it starts that way and returns to it after each successful add |
| AddPlantForm.DropIndexDeletesOne | frontend/src/components/AddPlantForm.jsx:90-95 | removing deletes exactly the field at the index and keeps the others in order; an index out of range changes nothing |
| AddPlantForm.SetIndexChangesOne | frontend/src/components/AddPlantForm.jsx:97-102 | updating changes only the field at the index and keeps the length; an index out of range changes nothing |
| AddPlantForm.CategoryFieldEdits | frontend/src/components/AddPlantForm.jsx:83-102 | adding appends one empty field, removing that field undoes it, and no edit touches another part of the form |
| AddPlantForm.RemoveKeepsOneField | frontend/src/components/AddPlantForm.jsx:181-184 | removal is offered only while there are two or more fields, so at least one always remains |

## Left out

- Network I/O is left out. `fetch`, `response.ok` and `response.json()` become a `Response` value (a 2xx body, a non-2xx message, or a throw) given to the completion functions.
- React scheduling is left out. Each hook operation is split into `Begin` and a completion, and their interleavings are event sequences.
- State-updater batching and re-renders are not modelled.
- The 300 ms debounce of the search box is left out, and so is the 5 s timer that clears the purchase notice. Both are timers: the model has the calls they eventually make, not when they happen.
- JavaScript number parsing (`Number`, `parseFloat`, `parseInt`, `isNaN`) is a parameter of the form model, not a definition. The model does not fix how a string such as `"1e3"` or `"12abc"` parses.
- Plant quantities and prices from the server are modelled as a mathematical integer and a real number, not IEEE doubles.
- `useCategories` and the category list it fetches are left out. The panel model takes the name being toggled as input.
- Routing is left out: `useLocation`, `navigate`, and the location-state message the home page shows after an add.
- Pure markup is left out: headers, icons, `getLightIcon`, image fallbacks, class strings other than the difficulty styles, and the results heading.
- Form field editing other than the category list is left out. Each such edit only sets one string.
- FormUrlEncoding.Parse, JsValues.Trim, JsValues.Utf16Length: strings with lone surrogates cannot occur, because a Dafny `char` is a Unicode scalar value. So the model does not cover how `URLSearchParams` replaces such a surrogate with U+FFFD, nor how `trim` and `length` treat one (a lone surrogate counts one code unit in JavaScript). For the same reason the decoder used for the round trip rejects malformed UTF-8 instead of replacing it, so the round trip is stated only for what the serializer produces.
- UsePlants.FetchDone: a successful listing body whose `data` is present but not an array is not modelled.
- UsePlants.AddDone: a successful add whose body has no `data` is not modelled; the model always has a plant to prepend and return.
- UsePlants.PurchaseDone: a successful purchase whose body has no `data` is not modelled; the model always has a plant to put in place of the bought one.

## Findings

| source | as written | input that shows it | evidently intended | confidence | as-written member | corrected member |
|---|---|---|---|---|---|---|
| frontend/src/components/SearchAndFilter.jsx:55 | `clearFilters` calls `onFilter({})`. The page merges that with `{ ...prev, ...{} }`, which keeps the old `category` and `inStock`, so the fetch Clear triggers still filters. | The page holds `category: ['indoor']` and `inStock: true`, and the user clicks Clear. The next request is `/plants?category=indoor&inStock=true`, while the panel shows no filters. | Clear sends `category` and `inStock` as `undefined`, so the merge drops them and the next request is the bare `/plants`. | not executed; proved about the model | HomePage.ClearStillFiltersExample | HomePage.ClearIntendedUnfilters |

=== FILE: add_plant_form.dfy ===
/** The add-plant form: its field strings, the rules `validateForm` checks,
    the payload a valid submit sends, the reset after a successful add, and
    the editing of its list of category fields. */
module AddPlantForm {
  import opened JsValues

  datatype FormData = FormData(
    name: string,
    price: string,
    categories: seq<string>,
    quantity: string,
    description: string,
    image: string,
    light: string)

  /** The form as it opens, and as a successful submit leaves it. */
  const InitialForm: FormData := FormData("", "", [""], "", "", "", "Medium")

  /** The JavaScript number conversions the form relies on, left
      uninterpreted: `Number(s)` (which `isNaN` applies too), `parseFloat(s)`
      and `parseInt(s)`. */
  datatype NumberParsers = NumberParsers(
    toNumber: string -> JsNumber,
    parseFloat: string -> JsNumber,
    parseInt: string -> JsNumber)

  datatype Field = NameField | PriceField | QuantityField | CategoriesField | DescriptionField

  const NameRequired: string := "Plant name is required"
  const NameTooLong: string := "Plant name must be less than 100 characters"
  const PriceRequired: string := "Price is required"
  const PriceInvalid: string := "Price must be a positive number"
  const QuantityRequired: string := "Quantity is required"
  const QuantityInvalid: string := "Quantity must be a non-negative integer"
  const CategoriesRequired: string := "At least one category is required"
  const DescriptionTooLong: string := "Description must be less than 500 characters"

  const MaxNameLength: nat := 100
  const MaxDescriptionLength: nat := 500

  // ------------------------------------------------------------ validation

  /** `xs.filter(keep)`: the entries that pass, in order and unchanged. */
  function Keep(xs: seq<string>, keep: string -> bool): (r: seq<string>)
    ensures |r| <= |xs|
    ensures forall i :: 0 <= i < |r| ==> keep(r[i])
    ensures forall x :: x in r <==> x in xs && keep(x)
    decreases |xs|
  {
    if xs == [] then []
    else
      assert xs == [xs[0]] + xs[1..];
      (if keep(xs[0]) then [xs[0]] else []) + Keep(xs[1..], keep)
  }

  /** Filtering distributes over concatenation, so it keeps the order. */
  lemma {:induction false} KeepAppend(a: seq<string>, b: seq<string>, keep: string -> bool)
    ensures Keep(a + b, keep) == Keep(a, keep) + Keep(b, keep)
    decreases |a|
  {
    if a == [] {
      assert a + b == b;
    } else {
      assert (a + b)[0] == a[0];
      assert (a + b)[1..] == a[1..] + b;
      KeepAppend(a[1..], b, keep);
    }
  }

  /** Each entry that passes is kept as often as it occurs, the others are
      dropped. */
  lemma {:induction false} KeepCounts(xs: seq<string>, keep: string -> bool, x: string)
    ensures multiset(Keep(xs, keep))[x] == if keep(x) then multiset(xs)[x] else 0
    decreases |xs|
  {
    if xs != [] {
      KeepCounts(xs[1..], keep, x);
      assert xs == [xs[0]] + xs[1..];
    }
  }

  /** Filtering twice keeps the same entries as filtering once. */
  lemma {:induction false} KeepIdempotent(xs: seq<string>, keep: string -> bool)
    ensures Keep(Keep(xs, keep), keep) == Keep(xs, keep)
    decreases |xs|
  {
    if xs != [] {
      var head := if keep(xs[0]) then [xs[0]] else [];
      KeepAppend(head, Keep(xs[1..], keep), keep);
      KeepIdempotent(xs[1..], keep);
      assert Keep(head, keep) == head by {
        if head != [] {
          assert head[1..] == [];
        }
      }
    }
  }

  /** `s.trim()` is truthy. */
  predicate HasText(s: string) {
    !IsBlank(s)
  }

  /** `cats.filter(cat => cat.trim())`. */
  function NonBlank(cats: seq<string>): seq<string> {
    Keep(cats, HasText)
  }

  function NameError(name: string): Option<string> {
    if !HasText(name) then Some(NameRequired)
    else if Utf16Length(name) > MaxNameLength then Some(NameTooLong)
    else None
  }

  function PriceError(price: string, num: NumberParsers): Option<string> {
    if !Truthy(price) then Some(PriceRequired)
    else if num.toNumber(price).NaN? || num.parseFloat(price).IsNegative() then Some(PriceInvalid)
    else None
  }

  function QuantityError(quantity: string, num: NumberParsers): Option<string> {
    if !Truthy(quantity) then Some(QuantityRequired)
    else if num.toNumber(quantity).NaN? || num.parseInt(quantity).IsNegative()
            || !num.toNumber(quantity).IsInteger() then Some(QuantityInvalid)
    else None
  }

  function CategoriesError(cats: seq<string>): Option<string> {
    if |NonBlank(cats)| == 0 then Some(CategoriesRequired) else None
  }

  function DescriptionError(description: string): Option<string> {
    if Truthy(description) && Utf16Length(description) > MaxDescriptionLength then Some(DescriptionTooLong)
    else None
  }

  /** The message the rule for one field produces, if it fails. */
  function FieldError(f: FormData, num: NumberParsers, k: Field): Option<string> {
    match k
    case NameField => NameError(f.name)
    case PriceField => PriceError(f.price, num)
    case QuantityField => QuantityError(f.quantity, num)
    case CategoriesField => CategoriesError(f.categories)
    case DescriptionField => DescriptionError(f.description)
  }

  /** Adds the message of a failed rule under its field. */
  function Record(errors: map<Field, string>, k: Field, e: Option<string>): map<Field, string> {
    match e
    case Some(m) => errors[k := m]
    case None => errors
  }

  /** `validateForm`: the rules checked one after another, each failure
      recorded under its field. */
  function ValidateForm(f: FormData, num: NumberParsers): map<Field, string> {
    var errors := Record(map[], NameField, FieldError(f, num, NameField));
    var errors := Record(errors, PriceField, FieldError(f, num, PriceField));
    var errors := Record(errors, QuantityField, FieldError(f, num, QuantityField));
    var errors := Record(errors, CategoriesField, FieldError(f, num, CategoriesField));
    Record(errors, DescriptionField, FieldError(f, num, DescriptionField))
  }

  /** A chain of five records over distinct fields holds exactly the
      failures, whatever the rules are. */
  lemma RecordChain(e1: Option<string>, e2: Option<string>, e3: Option<string>,
                    e4: Option<string>, e5: Option<string>, k: Field, e: Option<string>)
    requires e == match k
      case NameField => e1 case PriceField => e2 case QuantityField => e3
      case CategoriesField => e4 case DescriptionField => e5
    ensures var m := Record(Record(Record(Record(Record(map[], NameField, e1), PriceField, e2),
                                                QuantityField, e3), CategoriesField, e4), DescriptionField, e5);
      (k in m <==> e.Some?) && (k in m ==> m[k] == e.value)
  {
  }

  /** The error object holds one entry per failing rule and nothing else,
      each with that rule's message. */
  lemma ValidateRecordsEachFailure(f: FormData, num: NumberParsers, k: Field)
    ensures k in ValidateForm(f, num) <==> FieldError(f, num, k).Some?
    ensures k in ValidateForm(f, num) ==> ValidateForm(f, num)[k] == FieldError(f, num, k).value
  {
    RecordChain(FieldError(f, num, NameField), FieldError(f, num, PriceField), FieldError(f, num, QuantityField),
                FieldError(f, num, CategoriesField), FieldError(f, num, DescriptionField), k, FieldError(f, num, k));
  }

  /** The rules the form enforces, each stated on its own. */
  predicate NameOk(name: string) {
    (exists i :: 0 <= i < |name| && !IsJsWhitespace(name[i])) && Utf16Length(name) <= MaxNameLength
  }

  predicate PriceOk(price: string, num: NumberParsers) {
    price != "" && !num.toNumber(price).NaN? && !num.parseFloat(price).IsNegative()
  }

  predicate QuantityOk(quantity: string, num: NumberParsers) {
    quantity != "" && num.toNumber(quantity).IsInteger() && !num.parseInt(quantity).IsNegative()
  }

  predicate CategoriesOk(cats: seq<string>) {
    exists i :: 0 <= i < |cats| && HasText(cats[i])
  }

  predicate DescriptionOk(description: string) {
    Utf16Length(description) <= MaxDescriptionLength
  }

  /** The name rule rejects a blank name or one over 100 UTF-16 code
      units; a name of exactly 100 passes, whatever the message says. */
  lemma NameRule(name: string)
    ensures NameError(name).None? <==> NameOk(name)
    ensures NameError(name).Some? ==> NameError(name).value == if HasText(name) then NameTooLong else NameRequired
  {
    BlankIffAllWhitespace(name);
  }

  /** The price rule rejects only an empty price, a value that is not a
      number, or a negative one, so a price of zero passes although the
      message asks for a positive number. The quantity rule tests the
      string's `Number` value for being whole, while the payload will carry
      `parseInt` of the same string. */
  lemma NumberRules(price: string, quantity: string, num: NumberParsers)
    ensures PriceError(price, num).None? <==> PriceOk(price, num)
    ensures price != "" && num.toNumber(price) == Finite(0.0) && num.parseFloat(price) == Finite(0.0) ==>
      PriceError(price, num).None?
    ensures PriceError(price, num).Some? ==>
      PriceError(price, num).value == if price == "" then PriceRequired else PriceInvalid
    ensures QuantityError(quantity, num).None? <==> QuantityOk(quantity, num)
    ensures QuantityError(quantity, num).Some? ==>
      QuantityError(quantity, num).value == if quantity == "" then QuantityRequired else QuantityInvalid
    ensures QuantityError(quantity, num).None? ==>
      num.toNumber(quantity).Finite? && num.toNumber(quantity).v == num.toNumber(quantity).v.Floor as real
  {
  }

  /** A field has text exactly when some character of it is not
      whitespace. */
  lemma HasTextIffNonWhitespace(s: string)
    ensures HasText(s) <==> exists j :: 0 <= j < |s| && !IsJsWhitespace(s[j])
  {
    BlankIffAllWhitespace(s);
  }

  lemma CategoriesRule(cats: seq<string>)
    ensures CategoriesError(cats).None? <==> CategoriesOk(cats)
  {
    if CategoriesOk(cats) {
      var i :| 0 <= i < |cats| && HasText(cats[i]);
      assert cats[i] in NonBlank(cats);
    }
    if |NonBlank(cats)| > 0 {
      var x := NonBlank(cats)[0];
      assert x in NonBlank(cats);
      var i :| 0 <= i < |cats| && cats[i] == x;
    }
  }

  /** Each field is flagged exactly when its rule fails. */
  lemma ValidateFlagsFailingRules(f: FormData, num: NumberParsers)
    ensures NameField in ValidateForm(f, num) <==> !NameOk(f.name)
    ensures PriceField in ValidateForm(f, num) <==> !PriceOk(f.price, num)
    ensures QuantityField in ValidateForm(f, num) <==> !QuantityOk(f.quantity, num)
    ensures CategoriesField in ValidateForm(f, num) <==> !CategoriesOk(f.categories)
    ensures DescriptionField in ValidateForm(f, num) <==> !DescriptionOk(f.description)
  {
    NameRule(f.name);
    CategoriesRule(f.categories);
    ValidateRecordsEachFailure(f, num, NameField);
    ValidateRecordsEachFailure(f, num, PriceField);
    ValidateRecordsEachFailure(f, num, QuantityField);
    ValidateRecordsEachFailure(f, num, CategoriesField);
    ValidateRecordsEachFailure(f, num, DescriptionField);
  }

  /** The form is valid exactly when every rule holds. */
  lemma ValidIffAllRules(f: FormData, num: NumberParsers)
    ensures ValidateForm(f, num) == map[] <==>
      NameOk(f.name) && PriceOk(f.price, num) && QuantityOk(f.quantity, num)
      && CategoriesOk(f.categories) && DescriptionOk(f.description)
  {
    ValidateFlagsFailingRules(f, num);
    var e := ValidateForm(f, num);
    if e != map[] {
      var k :| k in e;
      assert k.NameField? || k.PriceField? || k.QuantityField? || k.CategoriesField? || k.DescriptionField?;
    }
  }

  // ---------------------------------------------------------------- submit

  /** What `onAddPlant` receives. */
  datatype Payload = Payload(
    name: string,
    price: JsNumber,
    categories: seq<string>,
    quantity: JsNumber,
    description: string,
    image: string,
    light: string)

  function PayloadOf(f: FormData, num: NumberParsers): Payload {
    Payload(f.name, num.parseFloat(f.price), NonBlank(f.categories), num.parseInt(f.quantity),
            f.description, f.image, f.light)
  }

  datatype FormState = FormState(data: FormData, errors: map<Field, string>, isOpen: bool)

  /** `handleSubmit` up to the call: record the errors, and send the
      payload only when there are none. */
  function Submit(s: FormState, num: NumberParsers): (FormState, Option<Payload>) {
    var errors := ValidateForm(s.data, num);
    if errors != map[] then (s.(errors := errors), None)
    else (s.(errors := errors), Some(PayloadOf(s.data, num)))
  }

  /** A submit sends nothing unless every rule holds; the fields are never
      touched. What it sends keeps the text fields as typed, carries the
      parsed numbers, and lists at least one category, only non-blank ones,
      untrimmed and in order. */
  lemma SubmitSendsOnlyValid(s: FormState, num: NumberParsers)
    ensures Submit(s, num).0.data == s.data
    ensures Submit(s, num).0.errors == ValidateForm(s.data, num)
    ensures Submit(s, num).1.Some? <==> ValidateForm(s.data, num) == map[]
    ensures Submit(s, num).1.Some? ==>
      var p := Submit(s, num).1.value;
      && p.name == s.data.name && p.description == s.data.description
      && p.image == s.data.image && p.light == s.data.light
      && p.price == num.parseFloat(s.data.price) && p.quantity == num.parseInt(s.data.quantity)
      && p.categories == NonBlank(s.data.categories) && |p.categories| > 0
  {
    ValidIffAllRules(s.data, num);
    CategoriesRule(s.data.categories);
  }

  /** What happens when `onAddPlant` settles: success resets the fields and
      errors (and closes the modal); failure is only logged. */
  function SubmitDone<T>(s: FormState, isModal: bool, o: Outcome<T>): FormState {
    match o
    case Returned(_) => FormState(InitialForm, map[], if isModal then false else s.isOpen)
    case Thrown(_) => s
  }

  /** After a successful add the form is back to its opening state with no
      errors, and the modal closes; a failed add keeps everything the user
      typed. */
  lemma SubmitDoneResets<T>(s: FormState, isModal: bool, o: Outcome<T>)
    ensures o.Returned? ==> SubmitDone(s, isModal, o).data == InitialForm
    ensures o.Returned? ==> SubmitDone(s, isModal, o).errors == map[]
    ensures o.Returned? && isModal ==> !SubmitDone(s, isModal, o).isOpen
    ensures o.Thrown? ==> SubmitDone(s, isModal, o) == s
  {
  }

  /** The opening form does not validate: name, price, quantity and
      categories are all flagged, the description is not. */
  lemma InitialFormInvalid(num: NumberParsers)
    ensures ValidateForm(InitialForm, num).Keys == {NameField, PriceField, QuantityField, CategoriesField}
  {
    assert TrimStart("") == "";
    assert !HasText("");
    assert NonBlank([""]) == [];
    forall k: Field
      ensures k in ValidateForm(InitialForm, num) <==> k in {NameField, PriceField, QuantityField, CategoriesField}
    {
      ValidateRecordsEachFailure(InitialForm, num, k);
    }
  }

  /** The state the component starts in: a modal form starts closed, an
      inline one open. */
  function OpeningState(isModal: bool): FormState {
    FormState(InitialForm, map[], !isModal)
  }

  /** A closed modal form draws only the floating launcher button. */
  predicate ShowsLauncher(s: FormState, isModal: bool) {
    !s.isOpen && isModal
  }

  /** The launcher appears only for the modal form: first on opening, then
      after each successful add; an inline form is always drawn in full. */
  lemma LauncherOnlyWhenModal<T>(s: FormState, isModal: bool, o: Outcome<T>)
    ensures ShowsLauncher(OpeningState(isModal), isModal) <==> isModal
    ensures isModal && o.Returned? ==> ShowsLauncher(SubmitDone(s, isModal, o), isModal)
    ensures !isModal ==> !ShowsLauncher(s, isModal)
    ensures !isModal ==> SubmitDone(s, isModal, o).isOpen == s.isOpen
  {
  }

  // ------------------------------------------------------- category fields

  function AddCategoryField(f: FormData): FormData {
    f.(categories := f.categories + [""])
  }

  /** `cats.filter((_, i) => i !== index)`. */
  function DropIndex(cats: seq<string>, index: int): (r: seq<string>)
    decreases |cats|
  {
    if cats == [] then []
    else (if index == 0 then [] else [cats[0]]) + DropIndex(cats[1..], index - 1)
  }

  /** `cats.map((cat, i) => i === index ? value : cat)`. */
  function SetIndex(cats: seq<string>, index: int, value: string): (r: seq<string>)
    decreases |cats|
  {
    if cats == [] then []
    else [if index == 0 then value else cats[0]] + SetIndex(cats[1..], index - 1, value)
  }

  function RemoveCategoryField(f: FormData, index: int): FormData {
    f.(categories := DropIndex(f.categories, index))
  }

  function UpdateCategory(f: FormData, index: int, value: string): FormData {
    f.(categories := SetIndex(f.categories, index, value))
  }

  /** Removing deletes exactly the entry at the index and keeps the rest in
      order; an index outside the list changes nothing. */
  lemma {:induction false} DropIndexDeletesOne(cats: seq<string>, index: int)
    ensures 0 <= index < |cats| ==> DropIndex(cats, index) == cats[..index] + cats[index + 1..]
    ensures !(0 <= index < |cats|) ==> DropIndex(cats, index) == cats
    decreases |cats|
  {
    if cats != [] {
      DropIndexDeletesOne(cats[1..], index - 1);
      if index > 0 && index < |cats| {
        assert cats[1..][..index - 1] == cats[1..index];
        assert cats[1..][index..] == cats[index + 1..];
        assert [cats[0]] + cats[1..index] == cats[..index];
      } else if index != 0 {
        assert [cats[0]] + cats[1..] == cats;
      }
    }
  }

  /** Updating changes only the entry at the index and keeps the length; an
      index outside the list changes nothing. */
  lemma {:induction false} SetIndexChangesOne(cats: seq<string>, index: int, value: string)
    ensures 0 <= index < |cats| ==> SetIndex(cats, index, value) == cats[index := value]
    ensures !(0 <= index < |cats|) ==> SetIndex(cats, index, value) == cats
    decreases |cats|
  {
    if cats != [] {
      SetIndexChangesOne(cats[1..], index - 1, value);
      if index > 0 && index < |cats| {
        assert [cats[0]] + cats[1..][index - 1 := value] == cats[index := value];
      } else if index != 0 {
        assert [cats[0]] + cats[1..] == cats;
      }
    }
  }

  /** The field edits touch only the category list: adding appends one
      empty field, and removing the field just added undoes it. */
  lemma CategoryFieldEdits(f: FormData, index: int, value: string)
    ensures AddCategoryField(f).categories == f.categories + [""]
    ensures RemoveCategoryField(AddCategoryField(f), |f.categories|) == f
    ensures RemoveCategoryField(f, index).(categories := f.categories) == f
    ensures UpdateCategory(f, index, value).(categories := f.categories) == f
    ensures |UpdateCategory(f, index, value).categories| == |f.categories|
  {
    DropIndexDeletesOne(f.categories + [""], |f.categories|);
    assert (f.categories + [""])[..|f.categories|] == f.categories;
    SetIndexChangesOne(f.categories, index, value);
  }

  /** The remove button is offered only while there are at least two
      fields, so removing through it always leaves one. */
  predicate OffersRemove(f: FormData) {
    |f.categories| > 1
  }

  lemma RemoveKeepsOneField(f: FormData, index: int)
    requires OffersRemove(f) && 0 <= index < |f.categories|
    ensures |RemoveCategoryField(f, index).categories| == |f.categories| - 1 >= 1
  {
    DropIndexDeletesOne(f.categories, index);
  }
}

=== FILE: form_urlencoding.dfy ===
/** The `application/x-www-form-urlencoded` serializer that
    `URLSearchParams.prototype.toString` applies (section 5.2 of the WHATWG
    URL Standard), the matching parser (section 5.1), and UTF-8 (section 3
    of RFC 3629) underneath both. The parameter list the catalog hook builds
    becomes a query string through `Serialize`; `ParseSerialize` shows that
    the string carries exactly that list. */
module FormUrlEncoding {
  import opened JsValues

  type Byte = b: int | 0 <= b < 256

  /** One `name=value` entry of a `URLSearchParams` list. */
  datatype Param = Param(name: string, value: string)

  // ---------------------------------------------------------------- UTF-8

  /** The UTF-8 bytes of one Unicode scalar value. */
  function CharUtf8(c: char): (bs: seq<Byte>)
    ensures 1 <= |bs| <= 4
    ensures (c as int < 0x80) <==> |bs| == 1
  {
    var cp := c as int;
    var r0 := cp % 64;
    var q0 := cp / 64;
    var r1 := q0 % 64;
    var q1 := q0 / 64;
    var r2 := q1 % 64;
    var q2 := q1 / 64;
    if cp < 0x80 then [cp]
    else if cp < 0x800 then [0xC0 + q0, 0x80 + r0]
    else if cp < 0x10000 then [0xE0 + q1, 0x80 + r1, 0x80 + r0]
    else [0xF0 + q2, 0x80 + r2, 0x80 + r1, 0x80 + r0]
  }

  function Utf8(s: string): (bs: seq<Byte>)
    ensures |s| <= |bs| <= 4 * |s|
    decreases |s|
  {
    if s == [] then [] else CharUtf8(s[0]) + Utf8(s[1..])
  }

  predicate IsContinuation(b: Byte) {
    0x80 <= b < 0xC0
  }

  predicate IsScalarValue(cp: int) {
    (0 <= cp < 0xD800) || (0xE000 <= cp < 0x110000)
  }

  /** Prepends one decoded character to the decoding of the rest. */
  function Cons(c: char, rest: Option<string>): Option<string> {
    match rest
    case Some(s) => Some([c] + s)
    case None => None
  }

  /** Strict UTF-8 decoding: `None` on an ill-formed sequence (a truncated
      or overlong sequence, a surrogate, or a value past U+10FFFF). */
  function Utf8Decode(bs: seq<Byte>): Option<string>
    decreases |bs|
  {
    if bs == [] then Some([])
    else
      var b0: int := bs[0];
      if b0 < 0x80 then
        Cons(b0 as char, Utf8Decode(bs[1..]))
      else if 0xC2 <= b0 < 0xE0 && |bs| >= 2 && IsContinuation(bs[1]) then
        var cp: int := (b0 - 0xC0) * 64 + (bs[1] - 0x80);
        Cons(cp as char, Utf8Decode(bs[2..]))
      else if 0xE0 <= b0 < 0xF0 && |bs| >= 3 && IsContinuation(bs[1]) && IsContinuation(bs[2]) then
        var cp: int := ((b0 - 0xE0) * 64 + (bs[1] - 0x80)) * 64 + (bs[2] - 0x80);
        if 0x800 <= cp && IsScalarValue(cp) then Cons(cp as char, Utf8Decode(bs[3..])) else None
      else if 0xF0 <= b0 < 0xF5 && |bs| >= 4 && IsContinuation(bs[1]) && IsContinuation(bs[2])
              && IsContinuation(bs[3]) then
        var cp: int := (((b0 - 0xF0) * 64 + (bs[1] - 0x80)) * 64 + (bs[2] - 0x80)) * 64 + (bs[3] - 0x80);
        if 0x10000 <= cp && IsScalarValue(cp) then Cons(cp as char, Utf8Decode(bs[4..])) else None
      else None
  }

  /** A two-byte sequence decodes back to its character. */
  lemma TwoByteDecodes(c: char, rest: seq<Byte>)
    requires 0x80 <= c as int < 0x800
    ensures Utf8Decode(CharUtf8(c) + rest) == Cons(c, Utf8Decode(rest))
  {
    var cp := c as int;
    var bs := CharUtf8(c) + rest;
    assert cp == (cp / 64) * 64 + cp % 64;
    assert bs[0] == 0xC0 + cp / 64 && bs[1] == 0x80 + cp % 64;
    assert bs[2..] == rest;
  }

  /** A three-byte sequence decodes back to its character. */
  lemma ThreeByteDecodes(c: char, rest: seq<Byte>)
    requires 0x800 <= c as int < 0x10000
    ensures Utf8Decode(CharUtf8(c) + rest) == Cons(c, Utf8Decode(rest))
  {
    var cp := c as int;
    var bs := CharUtf8(c) + rest;
    var q0 := cp / 64;
    assert cp == q0 * 64 + cp % 64;
    assert q0 == (q0 / 64) * 64 + q0 % 64;
    assert bs[0] == 0xE0 + q0 / 64 && bs[1] == 0x80 + q0 % 64 && bs[2] == 0x80 + cp % 64;
    assert bs[3..] == rest;
  }

  /** A four-byte sequence decodes back to its character. */
  lemma FourByteDecodes(c: char, rest: seq<Byte>)
    requires 0x10000 <= c as int
    ensures Utf8Decode(CharUtf8(c) + rest) == Cons(c, Utf8Decode(rest))
  {
    var cp := c as int;
    var bs := CharUtf8(c) + rest;
    var q0 := cp / 64;
    var q1 := q0 / 64;
    assert cp == q0 * 64 + cp % 64;
    assert q0 == q1 * 64 + q0 % 64;
    assert q1 == (q1 / 64) * 64 + q1 % 64;
    assert bs[0] == 0xF0 + q1 / 64 && bs[1] == 0x80 + q1 % 64 && bs[2] == 0x80 + q0 % 64 && bs[3] == 0x80 + cp % 64;
    assert bs[4..] == rest;
  }

  /** Decoding reads exactly one character back from its own bytes. */
  lemma CharUtf8Decodes(c: char, rest: seq<Byte>)
    ensures Utf8Decode(CharUtf8(c) + rest) == Cons(c, Utf8Decode(rest))
  {
    var cp := c as int;
    if cp < 0x80 {
      assert (CharUtf8(c) + rest)[1..] == rest;
    } else if cp < 0x800 {
      TwoByteDecodes(c, rest);
    } else if cp < 0x10000 {
      ThreeByteDecodes(c, rest);
    } else {
      FourByteDecodes(c, rest);
    }
  }

  /** UTF-8 decoding inverts UTF-8 encoding. */
  lemma {:induction false} Utf8RoundTrip(s: string)
    ensures Utf8Decode(Utf8(s)) == Some(s)
    decreases |s|
  {
    if s != [] {
      CharUtf8Decodes(s[0], Utf8(s[1..]));
      Utf8RoundTrip(s[1..]);
      assert [s[0]] + s[1..] == s;
    }
  }

  // ------------------------------------------------------- percent-encoding

  /** Bytes the urlencoded serializer leaves as they are: ASCII letters and
      digits and `*`, `-`, `.`, `_`. */
  predicate IsUnreserved(b: Byte) {
    || (0x30 <= b <= 0x39) || (0x41 <= b <= 0x5A) || (0x61 <= b <= 0x7A)
    || b == 0x2A || b == 0x2D || b == 0x2E || b == 0x5F
  }

  function HexDigit(n: int): (c: char)
    requires 0 <= n < 16
  {
    if n < 10 then ('0' as int + n) as char else ('A' as int + n - 10) as char
  }

  predicate IsHexDigit(c: char) {
    ('0' <= c <= '9') || ('A' <= c <= 'F') || ('a' <= c <= 'f')
  }

  function HexValue(c: char): (n: int)
    requires IsHexDigit(c)
    ensures 0 <= n < 16
  {
    if '0' <= c <= '9' then c as int - '0' as int
    else if 'A' <= c <= 'F' then c as int - 'A' as int + 10
    else c as int - 'a' as int + 10
  }

  /** One byte as the serializer writes it: a space becomes `+`, an
      unreserved byte stays, anything else becomes `%` and two upper-case
      hexadecimal digits. */
  function EncodeByte(b: Byte): (s: string)
    ensures 1 <= |s| <= 3
    ensures '&' !in s && '=' !in s
  {
    if b == 0x20 then "+"
    else if IsUnreserved(b) then [b as char]
    else ['%', HexDigit(b / 16), HexDigit(b % 16)]
  }

  function EncodeBytes(bs: seq<Byte>): (s: string)
    ensures '&' !in s && '=' !in s
    ensures |s| >= |bs|
    decreases |bs|
  {
    if bs == [] then "" else EncodeByte(bs[0]) + EncodeBytes(bs[1..])
  }

  /** The urlencoded form of a string: its UTF-8 bytes, each encoded. */
  function Encode(s: string): (e: string)
    ensures '&' !in e && '=' !in e
    ensures |e| >= |s|
  {
    EncodeBytes(Utf8(s))
  }

  /** The percent-decoding of section 5.1 of the URL Standard, after `+` has
      been turned into a space: `%` followed by two hexadecimal digits is the
      byte they spell, any other character stands for its UTF-8 bytes. */
  function PercentDecode(s: string): seq<Byte>
    decreases |s|
  {
    if s == [] then []
    else if s[0] == '%' && |s| >= 3 && IsHexDigit(s[1]) && IsHexDigit(s[2]) then
      [HexValue(s[1]) * 16 + HexValue(s[2])] + PercentDecode(s[3..])
    else if s[0] == '+' then [0x20] + PercentDecode(s[1..])
    else CharUtf8(s[0]) + PercentDecode(s[1..])
  }

  lemma EncodeByteDecodes(b: Byte, rest: string)
    ensures PercentDecode(EncodeByte(b) + rest) == [b] + PercentDecode(rest)
  {
    var s := EncodeByte(b) + rest;
    if b == 0x20 {
      assert s[1..] == rest;
    } else if IsUnreserved(b) {
      assert s[1..] == rest;
    } else {
      assert s[3..] == rest;
      assert b == (b / 16) * 16 + b % 16;
    }
  }

  lemma {:induction false} PercentRoundTrip(bs: seq<Byte>)
    ensures PercentDecode(EncodeBytes(bs)) == bs
    decreases |bs|
  {
    if bs != [] {
      EncodeByteDecodes(bs[0], EncodeBytes(bs[1..]));
      PercentRoundTrip(bs[1..]);
    }
  }

  /** How the parser reads back one name or value. */
  function Decode(s: string): Option<string> {
    Utf8Decode(PercentDecode(s))
  }

  /** A name or value reads back as itself, whatever characters it holds. */
  lemma EncodeRoundTrip(s: string)
    ensures Decode(Encode(s)) == Some(s)
  {
    PercentRoundTrip(Utf8(s));
    Utf8RoundTrip(s);
  }

  // ---------------------------------------------------------- serializing

  /** Joins pieces with a separator, as `Array.prototype.join` does. */
  function Join(parts: seq<string>, sep: char): (s: string)
    decreases |parts|
  {
    if parts == [] then ""
    else if |parts| == 1 then parts[0]
    else parts[0] + [sep] + Join(parts[1..], sep)
  }

  function SerializeParam(p: Param): (s: string)
    ensures '&' !in s && '=' in s
  {
    var n := Encode(p.name);
    var s := n + "=" + Encode(p.value);
    assert s[|n|] == '=';
    s
  }

  function SerializeAll(ps: seq<Param>): (pieces: seq<string>)
    ensures |pieces| == |ps|
    ensures forall i :: 0 <= i < |ps| ==> pieces[i] == SerializeParam(ps[i])
    decreases |ps|
  {
    if ps == [] then [] else [SerializeParam(ps[0])] + SerializeAll(ps[1..])
  }

  /** `URLSearchParams.prototype.toString`: the entries in order, each as
      `name=value`, joined with `&`. */
  function Serialize(ps: seq<Param>): (s: string)
    ensures s == "" <==> ps == []
  {
    var pieces := SerializeAll(ps);
    JoinNonEmpty(pieces, '&');
    Join(pieces, '&')
  }

  lemma {:induction false} JoinNonEmpty(parts: seq<string>, sep: char)
    requires forall i :: 0 <= i < |parts| ==> parts[i] != ""
    ensures Join(parts, sep) == "" <==> parts == []
    decreases |parts|
  {
    if |parts| > 1 {
      JoinNonEmpty(parts[1..], sep);
    }
  }

  // -------------------------------------------------------------- parsing

  /** `s.split(sep)`: the pieces between separators; always at least one. */
  function SplitOn(s: string, sep: char): (parts: seq<string>)
    ensures |parts| >= 1
    decreases |s|
  {
    if s == [] then [""]
    else
      var rest := SplitOn(s[1..], sep);
      if s[0] == sep then [""] + rest else [[s[0]] + rest[0]] + rest[1..]
  }

  /** Splits at the first `=`: the name before it and the value after it, or
      the whole string and an empty value when there is none. */
  function SplitFirst(s: string): (string, string)
    decreases |s|
  {
    if s == [] then ("", "")
    else if s[0] == '=' then ("", s[1..])
    else
      var (n, v) := SplitFirst(s[1..]);
      ([s[0]] + n, v)
  }

  function ParsePieces(pieces: seq<string>): Option<seq<Param>>
    decreases |pieces|
  {
    if pieces == [] then Some([])
    else if pieces[0] == "" then ParsePieces(pieces[1..])
    else
      var (n, v) := SplitFirst(pieces[0]);
      match (Decode(n), Decode(v), ParsePieces(pieces[1..]))
      case (Some(name), Some(value), Some(rest)) => Some([Param(name, value)] + rest)
      case _ => None
  }

  /** The urlencoded parser: split on `&`, skip empty pieces, split each at
      its first `=`, decode both halves. */
  function Parse(q: string): Option<seq<Param>> {
    ParsePieces(SplitOn(q, '&'))
  }

  lemma {:induction false} SplitOnFree(a: string, sep: char)
    requires sep !in a
    ensures SplitOn(a, sep) == [a]
    decreases |a|
  {
    if a != [] {
      SplitOnFree(a[1..], sep);
      assert [a[0]] + a[1..] == a;
    }
  }

  lemma {:induction false} SplitOnSeparated(a: string, sep: char, b: string)
    requires sep !in a
    ensures SplitOn(a + [sep] + b, sep) == [a] + SplitOn(b, sep)
    decreases |a|
  {
    var s := a + [sep] + b;
    if a == [] {
      assert s[1..] == b;
    } else {
      assert s[1..] == a[1..] + [sep] + b;
      SplitOnSeparated(a[1..], sep, b);
      assert [a[0]] + a[1..] == a;
    }
  }

  lemma {:induction false} SplitJoin(parts: seq<string>, sep: char)
    requires |parts| >= 1
    requires forall i :: 0 <= i < |parts| ==> sep !in parts[i]
    ensures SplitOn(Join(parts, sep), sep) == parts
    decreases |parts|
  {
    if |parts| == 1 {
      SplitOnFree(parts[0], sep);
    } else {
      SplitOnSeparated(parts[0], sep, Join(parts[1..], sep));
      SplitJoin(parts[1..], sep);
    }
  }

  lemma {:induction false} SplitFirstSeparated(a: string, b: string)
    requires '=' !in a
    ensures SplitFirst(a + "=" + b) == (a, b)
    decreases |a|
  {
    var s := a + "=" + b;
    if a == [] {
      assert s[1..] == b;
    } else {
      assert s[1..] == a[1..] + "=" + b;
      SplitFirstSeparated(a[1..], b);
      assert [a[0]] + a[1..] == a;
    }
  }

  lemma {:induction false} ParseSerializedPieces(ps: seq<Param>)
    ensures ParsePieces(SerializeAll(ps)) == Some(ps)
    decreases |ps|
  {
    if ps != [] {
      var p := ps[0];
      var pieces := SerializeAll(ps);
      SplitFirstSeparated(Encode(p.name), Encode(p.value));
      EncodeRoundTrip(p.name);
      EncodeRoundTrip(p.value);
      assert pieces[1..] == SerializeAll(ps[1..]);
      ParseSerializedPieces(ps[1..]);
      assert [p] + ps[1..] == ps;
    }
  }

  /** Parsing the serialized list gives the list back, in order: no name or
      value can leak into a neighbouring entry, whatever characters it holds. */
  lemma ParseSerialize(ps: seq<Param>)
    ensures Parse(Serialize(ps)) == Some(ps)
  {
    var pieces := SerializeAll(ps);
    if ps == [] {
      assert Serialize(ps) == "";
      assert SplitOn("", '&') == [""];
    } else {
      SplitJoin(pieces, '&');
      ParseSerializedPieces(ps);
    }
  }
}

=== FILE: home_page.dfy ===
/** The home page: it keeps the filter record, merges the panel's calls
    into it and fetches with the result, picks what to draw from the hook's
    state, and turns a purchase result into the success notice. */
module HomePage {
  import opened JsValues
  import opened FormUrlEncoding
  import opened UsePlants
  import opened SearchAndFilter
  import opened PlantCard

  // ------------------------------------------------------ filter merging

  /** `{ ...prev, ...options }`: every key present in `options` (even with
      `undefined`) overwrites, every other key of `prev` stays. */
  function Merge(prev: SearchParams, options: SearchParams): (merged: SearchParams) {
    SearchParams(
      if options.search.IsPresent() then options.search else prev.search,
      if options.category.IsPresent() then options.category else prev.category,
      if options.inStock.IsPresent() then options.inStock else prev.inStock)
  }

  /** Merging `{}` changes nothing, and `{}` merged with anything is that
      thing. */
  lemma MergeEmpty(p: SearchParams)
    ensures Merge(p, NoParams) == p
    ensures Merge(NoParams, p) == p
  {
  }

  /** Merging the same options again changes nothing, and two merges in a
      row are one merge of the merged options. */
  lemma MergeLaws(a: SearchParams, b: SearchParams, c: SearchParams)
    ensures Merge(Merge(a, b), b) == Merge(a, b)
    ensures Merge(Merge(a, b), c) == Merge(a, Merge(b, c))
  {
  }

  /** `handleSearch`: the filters with `search` overwritten. */
  function HandleSearch(prev: SearchParams, search: string): SearchParams {
    prev.(search := Holds(search))
  }

  /** A search is a merge of `{ search }`: only `search` changes, and the
      category and stock filters are kept. */
  lemma HandleSearchIsMerge(prev: SearchParams, search: string)
    ensures HandleSearch(prev, search) == Merge(prev, SearchParams(Holds(search), Absent, Absent))
    ensures HandleSearch(prev, search).category == prev.category
    ensures HandleSearch(prev, search).inStock == prev.inStock
  {
  }

  /** The new filters a call from the panel produces. Both handlers call
      `fetchPlants` with exactly the record they store. */
  function Receive(prev: SearchParams, e: Emission): SearchParams {
    match e
    case SearchEmitted(term) => HandleSearch(prev, term)
    case FilterEmitted(options) => Merge(prev, options)
  }

  function ReceiveAll(prev: SearchParams, es: seq<Emission>): SearchParams
    decreases |es|
  {
    if es == [] then prev else ReceiveAll(Receive(prev, es[0]), es[1..])
  }

  /** After a category is ticked or unticked, the fetch sends the new
      selection joined in order when there is one and no category at all
      when there is none, whatever the page held before; the search is
      kept and the stock filter is the panel's. */
  lemma CategoryChangeQuery(prev: SearchParams, p: Panel, c: string)
    ensures var next := Receive(prev, HandleCategoryChange(p, c).1);
      && var sel := HandleCategoryChange(p, c).0.selected;
      && sel == Toggle(p.selected, c)
      && HandleCategoryChange(p, c).0.stock == p.stock
      && Get(QueryParams(next), "category") == (if |sel| > 0 then Some(Join(sel, ',')) else None)
      && next.search == prev.search
      && Get(QueryParams(next), "inStock") == (if p.stock.Some? then Some(BoolText(p.stock.value)) else None)
  {
    var next := Receive(prev, HandleCategoryChange(p, c).1);
    QueryReadsBack(next);
  }

  /** After the stock select changes, the fetch sends the chosen filter
      (none for "All Plants") together with the panel's selection. */
  lemma StockChangeQuery(prev: SearchParams, p: Panel, value: string)
    ensures HandleStockFilterChange(p, StockFromSelect(value)).0.stock == StockFromSelect(value)
    ensures HandleStockFilterChange(p, StockFromSelect(value)).0.selected == p.selected
    ensures var next := Receive(prev, HandleStockFilterChange(p, StockFromSelect(value)).1);
      && Get(QueryParams(next), "inStock") == (if value == "" then None else Some(BoolText(value == "true")))
      && Get(QueryParams(next), "category") == (if |p.selected| > 0 then Some(Join(p.selected, ',')) else None)
      && next.search == prev.search
  {
    var next := Receive(prev, HandleStockFilterChange(p, StockFromSelect(value)).1);
    QueryReadsBack(next);
  }

  /** Clearing as written: the page's search becomes empty but its category
      and stock filters survive, because merging `{}` keeps every key. */
  lemma ClearKeepsFilters(prev: SearchParams, p: Panel)
    ensures ReceiveAll(prev, ClearFilters(p).1) == prev.(search := Holds(""))
  {
    var es := ClearFilters(p).1;
    var afterSearch := Receive(prev, es[0]);
    assert ReceiveAll(prev, es) == ReceiveAll(afterSearch, es[1..]);
    assert es[1..][1..] == [];
    assert ReceiveAll(afterSearch, es[1..]) == Receive(afterSearch, FilterEmitted(NoParams));
  }

  /** So after Clear the fetch still sends the old category and stock filter,
      and goes to a filtered URL whenever either was set. */
  lemma ClearStillSendsFilters(base: string, prev: SearchParams, p: Panel)
    ensures Get(QueryParams(ReceiveAll(prev, ClearFilters(p).1)), "category") == Get(QueryParams(prev), "category")
    ensures Get(QueryParams(ReceiveAll(prev, ClearFilters(p).1)), "inStock") == Get(QueryParams(prev), "inStock")
    ensures SendsCategory(prev) || SendsInStock(prev) ==>
      PlantsUrl(base, ReceiveAll(prev, ClearFilters(p).1)) != base + "/plants"
  {
    ClearKeepsFilters(prev, p);
    var next := prev.(search := Holds(""));
    QueryReadsBack(prev);
    QueryReadsBack(next);
    UrlCarriesQuery(base, next);
  }

  /** A concrete case: with "indoor" selected and the stock filter on, the
      fetch Clear triggers still asks for indoor plants in stock. */
  lemma ClearStillFiltersExample(p: Panel)
    ensures QueryParams(ReceiveAll(SearchParams(Holds("fern"), Holds(Many(["indoor"])), Holds(true)), ClearFilters(p).1))
            == [Param("category", "indoor"), Param("inStock", "true")]
  {
    var prev := SearchParams(Holds("fern"), Holds(Many(["indoor"])), Holds(true));
    ClearKeepsFilters(prev, p);
  }

  /** Clearing as intended empties the query: whatever the page held, the
      next fetch goes to the bare listing endpoint. */
  lemma ClearIntendedUnfilters(base: string, prev: SearchParams, p: Panel)
    ensures ReceiveAll(prev, ClearFiltersIntended(p).1) == SearchParams(Holds(""), Undefined, Undefined)
    ensures PlantsUrl(base, ReceiveAll(prev, ClearFiltersIntended(p).1)) == base + "/plants"
  {
    var es := ClearFiltersIntended(p).1;
    var afterSearch := Receive(prev, es[0]);
    assert ReceiveAll(prev, es) == ReceiveAll(afterSearch, es[1..]);
    assert es[1..][1..] == [];
    assert ReceiveAll(afterSearch, es[1..]) == Receive(afterSearch, es[1]);
  }

  // ------------------------------------------------------- the notice

  const PurchaseDefaultNotice: string := "Plant purchased successfully!"

  /** `handlePurchase`: a successful purchase sets the notice to the
      server's message, or to the default when it has none; a failed one is
      only logged, so the notice stays as it was. */
  function PurchaseNotice(current: string, o: Outcome<PurchaseBody>): string {
    match o
    case Returned(body) => MessageOr(body.message, PurchaseDefaultNotice)
    case Thrown(_) => current
  }

  /** After a successful purchase the notice is never empty, so the banner
      always shows; it is the server's text whenever that is non-empty. */
  lemma NoticeAfterPurchase(current: string, o: Outcome<PurchaseBody>)
    ensures o.Returned? ==> Truthy(PurchaseNotice(current, o))
    ensures o.Returned? && o.value.message.Some? && Truthy(o.value.message.value) ==>
      PurchaseNotice(current, o) == o.value.message.value
    ensures o.Returned? && !(o.value.message.Some? && Truthy(o.value.message.value)) ==>
      PurchaseNotice(current, o) == PurchaseDefaultNotice
    ensures o.Thrown? ==> PurchaseNotice(current, o) == current
  {
  }

  /** A click on Buy, followed by the purchase's response: the hook state
      and the notice afterwards. A card out of stock does nothing. */
  function BuyClicked(s: HookState, notice: string, p: Plant, r: Response<PurchaseBody>): (HookState, string) {
    match PurchaseCall(true, p)
    case None => (s, notice)
    case Some((id, _)) =>
      var (t, o) := PurchaseDone(Begin(s), id, r);
      (t, PurchaseNotice(notice, o))
  }

  /** Buying from a card patches exactly that plant's entries with the
      server's copy and shows a notice; a card out of stock, or a rejected
      purchase, leaves the list as it is. */
  lemma BuyFromCard(s: HookState, notice: string, p: Plant, r: Response<PurchaseBody>)
    ensures IsInStock(p) && r.Ok? ==>
      BuyClicked(s, notice, p, r).0.plants == ReplaceById(s.plants, p.id, r.body.data) &&
      Truthy(BuyClicked(s, notice, p, r).1)
    ensures !IsInStock(p) ==> BuyClicked(s, notice, p, r) == (s, notice)
    ensures !r.Ok? ==>
      BuyClicked(s, notice, p, r).0.plants == s.plants && BuyClicked(s, notice, p, r).1 == notice
  {
  }

  // ---------------------------------------------------------- rendering

  const AdjustHint: string := "Try adjusting your search or filter criteria."
  const NothingHint: string := "No plants available at the moment."

  /** The main area of the page. */
  datatype Body = ErrorPage(message: string) | Skeleton | NoPlants(hint: string) | Grid(cards: seq<Plant>)

  /** The main area, and whether the "Updating results..." overlay is up. */
  datatype View = View(body: Body, overlay: bool)

  /** `error` as JSX tests it. */
  predicate HasError(s: HookState) {
    s.error.Some? && Truthy(s.error.value)
  }

  /** `filters.search || (filters.category && filters.category.length > 0)`. */
  predicate IsNarrowed(filters: SearchParams) {
    || SendsSearch(filters)
    || (filters.category.Holds? &&
        match filters.category.value
        case Many(names) => |names| > 0
        case One(name) => Utf16Length(name) > 0)
  }

  function Render(s: HookState, filters: SearchParams): (v: View) {
    if HasError(s) && |s.plants| == 0 then View(ErrorPage(s.error.value), false)
    else
      var body :=
        if s.loading && |s.plants| == 0 then Skeleton
        else if |s.plants| == 0 then NoPlants(if IsNarrowed(filters) then AdjustHint else NothingHint)
        else Grid(s.plants);
      View(body, s.loading && |s.plants| > 0)
  }

  /** Each state draws exactly one of the four bodies, and which one
      depends on the three flags as follows; in particular a list with an
      error still shows as a grid and the error is not drawn at all. */
  lemma RenderCases(s: HookState, filters: SearchParams)
    ensures Render(s, filters).body.ErrorPage? <==> HasError(s) && |s.plants| == 0
    ensures Render(s, filters).body.ErrorPage? ==> Render(s, filters).body.message == s.error.value
    ensures Render(s, filters).body.Skeleton? <==> !HasError(s) && s.loading && |s.plants| == 0
    ensures Render(s, filters).body.NoPlants? <==> !HasError(s) && !s.loading && |s.plants| == 0
    ensures Render(s, filters).body.Grid? <==> |s.plants| > 0
    ensures Render(s, filters).body.Grid? ==> Render(s, filters).body.cards == s.plants
  {
  }

  /** The overlay is up exactly while a request runs over a non-empty list:
      it sits over the grid and never over the skeleton. */
  lemma OverlayOverGrid(s: HookState, filters: SearchParams)
    ensures Render(s, filters).overlay <==> s.loading && |s.plants| > 0
    ensures Render(s, filters).overlay ==> Render(s, filters).body.Grid?
    ensures !(Render(s, filters).overlay && Render(s, filters).body.Skeleton?)
  {
  }

  /** The empty state suggests changing the filters exactly when a search
      term or a category narrows the list. */
  lemma EmptyHintFollowsFilters(s: HookState, filters: SearchParams)
    requires Render(s, filters).body.NoPlants?
    ensures Render(s, filters).body.hint == AdjustHint <==>
      SendsSearch(filters) || (filters.category.Holds? && filters.category.value != Many([])
                              && filters.category.value != One(""))
  {
  }
}

=== FILE: js_values.dfy ===
/** The pieces of JavaScript semantics that the plant-store frontend leans on:
    optional values, object keys that may be missing or hold `undefined`,
    string truthiness, `String.prototype.trim`, the UTF-16 `length` of a
    string, number values with NaN and the infinities, and the decimal
    rendering of a non-negative integer. */
module JsValues {

  datatype Option<+T> = None | Some(value: T) {
    function GetOr(default: T): T {
      match this
      case Some(v) => v
      case None => default
    }
  }

  /** What an `async` function does with its caller: it either returns a
      value or throws an `Error` whose `message` is given. */
  datatype Outcome<+T> = Returned(value: T) | Thrown(message: string)

  /** One key of a plain JavaScript object: not present, present and holding
      `undefined`, or present and holding a value. Reading the key gives
      `undefined` in the first two cases; spreading the object (`{...o}`)
      copies the key in the last two. */
  datatype Slot<+T> = Absent | Undefined | Holds(value: T) {
    predicate IsPresent() { !Absent? }

    function Read(): Option<T> {
      if Holds? then Some(value) else None
    }
  }

  /** A JavaScript string is truthy exactly when it is not empty. */
  predicate Truthy(s: string) {
    s != ""
  }

  /** `s1 || s2` on two strings. */
  function OrElse(s: string, fallback: string): (r: string)
    ensures Truthy(s) ==> r == s
    ensures !Truthy(s) ==> r == fallback
  {
    if s != "" then s else fallback
  }

  /** `x || fallback` where `x` is a string that may be missing. */
  function MessageOr(m: Option<string>, fallback: string): (r: string)
    ensures m.Some? && Truthy(m.value) ==> r == m.value
    ensures !(m.Some? && Truthy(m.value)) ==> r == fallback
  {
    match m
    case Some(s) => OrElse(s, fallback)
    case None => fallback
  }

  /** The code points `String.prototype.trim` removes: the WhiteSpace and
      LineTerminator productions of ECMAScript (section 12.2 and 12.3 of
      ECMA-262), Unicode category Zs included. */
  predicate IsJsWhitespace(c: char) {
    || c == '\t' || c == '\n' || c == '\U{B}' || c == '\U{C}' || c == '\r'
    || c == ' ' || c == '\U{A0}' || c == '\U{1680}'
    || ('\U{2000}' <= c <= '\U{200A}')
    || c == '\U{2028}' || c == '\U{2029}' || c == '\U{202F}' || c == '\U{205F}'
    || c == '\U{3000}' || c == '\U{FEFF}'
  }

  /** `s.trimStart()`. */
  function TrimStart(s: string): (r: string)
    decreases |s|
  {
    if s != [] && IsJsWhitespace(s[0]) then TrimStart(s[1..]) else s
  }

  /** `s.trimEnd()`. */
  function TrimEnd(s: string): (r: string)
    decreases |s|
  {
    if s != [] && IsJsWhitespace(s[|s| - 1]) then TrimEnd(s[..|s| - 1]) else s
  }

  /** `trimStart` drops exactly the leading run of whitespace: what it keeps
      is a suffix that does not start with whitespace, and everything
      before it is whitespace. */
  lemma {:induction false} TrimStartDropsLeadingRun(s: string)
    ensures |TrimStart(s)| <= |s| && TrimStart(s) == s[|s| - |TrimStart(s)|..]
    ensures forall i :: 0 <= i < |s| - |TrimStart(s)| ==> IsJsWhitespace(s[i])
    ensures TrimStart(s) != [] ==> !IsJsWhitespace(TrimStart(s)[0])
    decreases |s|
  {
    if s != [] && IsJsWhitespace(s[0]) {
      TrimStartDropsLeadingRun(s[1..]);
      assert s[1..][|s| - 1 - |TrimStart(s)|..] == s[|s| - |TrimStart(s)|..];
      forall i | 0 < i < |s| - |TrimStart(s)|
        ensures IsJsWhitespace(s[i])
      {
        assert s[i] == s[1..][i - 1];
      }
    }
  }

  /** `trimEnd` drops exactly the trailing run of whitespace: what it keeps
      is a prefix that does not end with whitespace, and everything after
      it is whitespace. */
  lemma {:induction false} TrimEndDropsTrailingRun(s: string)
    ensures |TrimEnd(s)| <= |s| && TrimEnd(s) == s[..|TrimEnd(s)|]
    ensures forall i :: |TrimEnd(s)| <= i < |s| ==> IsJsWhitespace(s[i])
    ensures TrimEnd(s) != [] ==> !IsJsWhitespace(TrimEnd(s)[|TrimEnd(s)| - 1])
    decreases |s|
  {
    if s != [] && IsJsWhitespace(s[|s| - 1]) {
      var t := s[..|s| - 1];
      TrimEndDropsTrailingRun(t);
      assert t[..|TrimEnd(s)|] == s[..|TrimEnd(s)|];
      forall i | |TrimEnd(s)| <= i < |s| - 1
        ensures IsJsWhitespace(s[i])
      {
        assert s[i] == t[i];
      }
    }
  }

  /** `s.trim()`. */
  function Trim(s: string): (r: string) {
    TrimEnd(TrimStart(s))
  }

  /** `!s.trim()`: the string holds nothing but whitespace. */
  predicate IsBlank(s: string) {
    Trim(s) == ""
  }

  /** A string trims to the empty string exactly when every character in it
      is whitespace; so `s.trim()` is truthy iff some character is not. */
  lemma BlankIffAllWhitespace(s: string)
    ensures IsBlank(s) <==> forall i :: 0 <= i < |s| ==> IsJsWhitespace(s[i])
  {
    var t := TrimStart(s);
    TrimStartDropsLeadingRun(s);
    TrimEndDropsTrailingRun(t);
  }

  /** The number of UTF-16 code units of one code point. */
  function Utf16Units(c: char): int {
    if c as int >= 0x10000 then 2 else 1
  }

  /** `s.length`: JavaScript counts UTF-16 code units, so a character outside
      the Basic Multilingual Plane counts twice. */
  function Utf16Length(s: string): (n: nat)
    ensures |s| <= n <= 2 * |s|
    ensures n == 0 <==> s == []
    ensures (forall i :: 0 <= i < |s| ==> s[i] as int < 0x10000) ==> n == |s|
    ensures |s| == 1 ==> n == if s[0] as int >= 0x10000 then 2 else 1
    decreases |s|
  {
    if s == [] then 0 else Utf16Units(s[0]) + Utf16Length(s[1..])
  }

  /** The length of a concatenation is the sum of the lengths. */
  lemma {:induction false} Utf16LengthAppend(a: string, b: string)
    ensures Utf16Length(a + b) == Utf16Length(a) + Utf16Length(b)
    decreases |a|
  {
    if a == [] {
      assert a + b == b;
    } else {
      assert (a + b)[0] == a[0];
      assert (a + b)[1..] == a[1..] + b;
      Utf16LengthAppend(a[1..], b);
    }
  }

  /** A JavaScript number: NaN, the two infinities, or a finite value
      (negative zero is not told apart from zero). */
  datatype JsNumber = NaN | Finite(v: real) | PosInfinity | NegInfinity {
    /** `x < 0`; every comparison with NaN is false. */
    predicate IsNegative() {
      NegInfinity? || (Finite? && v < 0.0)
    }

    /** `Number.isInteger(x)`. */
    predicate IsInteger() {
      Finite? && v.Floor as real == v
    }
  }

  function DigitChar(d: int): (c: char)
    requires 0 <= d < 10
    ensures '0' <= c <= '9'
  {
    ('0' as int + d) as char
  }

  /** The decimal rendering of a non-negative integer, as template literals
      and `String(n)` produce it: no sign, no leading zero. */
  function NatToDecimal(n: nat): (s: string)
    ensures |s| >= 1
    ensures forall i :: 0 <= i < |s| ==> '0' <= s[i] <= '9'
    ensures |s| > 1 ==> s[0] != '0'
    decreases n
  {
    if n < 10 then [DigitChar(n)] else NatToDecimal(n / 10) + [DigitChar(n % 10)]
  }

  /** Reads a string of decimal digits back as a number. */
  function DecimalValue(s: string): nat
    requires forall i :: 0 <= i < |s| ==> '0' <= s[i] <= '9'
    decreases |s|
  {
    if s == [] then 0
    else 10 * DecimalValue(s[..|s| - 1]) + (s[|s| - 1] as int - '0' as int)
  }

  /** The rendering reads back as the number it renders. */
  lemma {:induction false} DecimalRoundTrip(n: nat)
    ensures DecimalValue(NatToDecimal(n)) == n
    decreases n
  {
    if n >= 10 {
      var s := NatToDecimal(n);
      assert s[..|s| - 1] == NatToDecimal(n / 10);
      DecimalRoundTrip(n / 10);
    }
  }
}

=== FILE: plant_card.dfy ===
/** The card that shows one plant: whether it is in stock, when its Buy
    button fires, the style of its difficulty badge, which category chips it
    shows, and its stock label. */
module PlantCard {
  import opened JsValues
  import opened UsePlants

  /** `quantity > 0`. */
  predicate IsInStock(p: Plant) {
    p.quantity > 0
  }

  /** The call `handlePurchase` makes, if any: only with a handler and only
      for a plant in stock, and always for one unit. */
  function PurchaseCall(hasHandler: bool, p: Plant): (call: Option<(string, int)>)
    ensures call.Some? <==> hasHandler && p.quantity > 0
    ensures call.Some? ==> call.value == (p.id, 1)
  {
    if hasHandler && IsInStock(p) then Some((p.id, 1)) else None
  }

  /** The Buy button is drawn exactly when clicking it would buy. */
  predicate ShowsBuyButton(hasHandler: bool, p: Plant) {
    hasHandler && IsInStock(p)
  }

  lemma BuyButtonMatchesGuard(hasHandler: bool, p: Plant)
    ensures ShowsBuyButton(hasHandler, p) <==> PurchaseCall(hasHandler, p).Some?
  {
  }

  const EasyStyle: string := "text-green-600 bg-green-50 border-green-200"
  const MediumStyle: string := "text-yellow-600 bg-yellow-50 border-yellow-200"
  const HardStyle: string := "text-red-600 bg-red-50 border-red-200"
  const DefaultStyle: string := "text-gray-600 bg-gray-50 border-gray-200"

  /** `getDifficultyColor`; a missing difficulty falls to the default. */
  function DifficultyStyle(difficulty: Option<string>): string {
    match difficulty
    case Some("Easy") => EasyStyle
    case Some("Medium") => MediumStyle
    case Some("Hard") => HardStyle
    case _ => DefaultStyle
  }

  /** The three levels get three different styles, and only they leave the
      grey default. */
  lemma DifficultyStylesDistinct(d: Option<string>)
    ensures DifficultyStyle(Some("Easy")) == EasyStyle
    ensures DifficultyStyle(Some("Medium")) == MediumStyle
    ensures DifficultyStyle(Some("Hard")) == HardStyle
    ensures DifficultyStyle(Some("Easy")) != DifficultyStyle(Some("Medium"))
    ensures DifficultyStyle(Some("Medium")) != DifficultyStyle(Some("Hard"))
    ensures DifficultyStyle(Some("Easy")) != DifficultyStyle(Some("Hard"))
    ensures DifficultyStyle(d) == DefaultStyle <==> !(d.Some? && d.value in {"Easy", "Medium", "Hard"})
  {
  }

  /** The chips a card draws: the first two categories, and the count of
      the rest when there is a rest. */
  datatype Chips = Chips(shown: seq<string>, more: Option<nat>)

  function CategoryChips(categories: seq<string>): Chips {
    var n := |categories|;
    Chips(categories[..if n < 2 then n else 2], if n > 2 then Some(n - 2) else None)
  }

  /** Every category is accounted for exactly once: the shown chips are a
      prefix of at most two, and the "+N more" chip counts the others. */
  lemma ChipsAccountForAll(categories: seq<string>)
    ensures |CategoryChips(categories).shown| <= 2
    ensures categories[..|CategoryChips(categories).shown|] == CategoryChips(categories).shown
    ensures CategoryChips(categories).more.Some? <==> |categories| > 2
    ensures |CategoryChips(categories).shown| + CategoryChips(categories).more.GetOr(0) == |categories|
  {
  }

  const OutOfStockLabel: string := "Out of Stock"

  /** The stock label next to the price. */
  function StockLabel(p: Plant): string {
    if IsInStock(p) then NatToDecimal(p.quantity) + " in stock" else OutOfStockLabel
  }

  /** A plant in stock shows its quantity, which reads back from the label;
      a plant out of stock shows the fixed label. */
  lemma StockLabelShowsQuantity(p: Plant)
    ensures IsInStock(p) ==>
      exists digits :: StockLabel(p) == digits + " in stock"
        && (forall i :: 0 <= i < |digits| ==> '0' <= digits[i] <= '9')
        && DecimalValue(digits) == p.quantity
    ensures !IsInStock(p) ==> StockLabel(p) == OutOfStockLabel
  {
    if IsInStock(p) {
      DecimalRoundTrip(p.quantity);
    }
  }
}

=== FILE: search_and_filter.dfy ===
/** The search-and-filter panel: its own copy of the search term, the
    ordered list of selected categories and the tri-state stock filter, and
    the calls it makes into the page (`onSearch`, `onFilter`) when the user
    edits them. */
module SearchAndFilter {
  import opened JsValues
  import opened UsePlants

  datatype Panel = Panel(searchTerm: string, selected: seq<string>, stock: Option<bool>, showFilters: bool)

  /** A call the panel makes into the page. */
  datatype Emission = SearchEmitted(term: string) | FilterEmitted(options: SearchParams)

  // ------------------------------------------------------ initial state

  /** The selection the panel starts from: the array itself, a one-element
      list for a single non-empty name, nothing otherwise. */
  function InitialSelection(current: SearchParams): (sel: seq<string>)
    ensures sel == [] <==> !SendsCategory(current) || current.category.value == Many([])
    ensures SendsCategory(current) && current.category.value.Many? ==> sel == current.category.value.names
    ensures SendsCategory(current) && current.category.value.One? ==> sel == [current.category.value.name]
  {
    match current.category
    case Holds(Many(names)) => names
    case Holds(One(name)) => if Truthy(name) then [name] else []
    case _ => []
  }

  function InitialPanel(current: SearchParams): (p: Panel)
    ensures !p.showFilters
  {
    Panel(current.search.Read().GetOr(""), InitialSelection(current), current.inStock.Read(), false)
  }

  /** Re-emitting the selection the panel starts from sends the same
      `category` value the page already sends: a single name joins to
      itself. */
  lemma InitialSelectionSameQuery(current: SearchParams)
    requires SendsCategory(current) && current.category.value != Many([])
    ensures |InitialSelection(current)| > 0
    ensures CategoryText(Many(InitialSelection(current))) == CategoryText(current.category.value)
  {
  }

  /** The panel shows the page's search term and stock filter as they are. */
  lemma InitialPanelMirrorsFilters(current: SearchParams)
    ensures current.search.Holds? ==> InitialPanel(current).searchTerm == current.search.value
    ensures !current.search.Holds? ==> InitialPanel(current).searchTerm == ""
    ensures InitialPanel(current).stock.Some? <==> SendsInStock(current)
    ensures SendsInStock(current) ==> InitialPanel(current).stock == Some(current.inStock.value)
  {
  }

  // ----------------------------------------------------- category toggle

  /** `xs.filter(x => x !== c)`. */
  function RemoveAll(xs: seq<string>, c: string): (r: seq<string>)
    ensures forall x :: x in r <==> x in xs && x != c
    decreases |xs|
  {
    if xs == [] then []
    else
      assert xs == [xs[0]] + xs[1..];
      (if xs[0] == c then [] else [xs[0]]) + RemoveAll(xs[1..], c)
  }

  /** Every other name keeps its count; the removed one drops to zero. */
  lemma {:induction false} RemoveAllCounts(xs: seq<string>, c: string)
    ensures multiset(RemoveAll(xs, c)) == multiset(xs)[c := 0]
    decreases |xs|
  {
    if xs != [] {
      RemoveAllCounts(xs[1..], c);
      assert xs == [xs[0]] + xs[1..];
    }
  }

  lemma {:induction false} RemoveAllAbsent(xs: seq<string>, c: string)
    requires c !in xs
    ensures RemoveAll(xs, c) == xs
    decreases |xs|
  {
    if xs != [] {
      RemoveAllAbsent(xs[1..], c);
    }
  }

  lemma {:induction false} RemoveAllAppend(a: seq<string>, b: seq<string>, c: string)
    ensures RemoveAll(a + b, c) == RemoveAll(a, c) + RemoveAll(b, c)
    decreases |a|
  {
    if a == [] {
      assert a + b == b;
    } else {
      assert (a + b)[0] == a[0];
      assert (a + b)[1..] == a[1..] + b;
      RemoveAllAppend(a[1..], b, c);
    }
  }

  /** The selection after the user ticks or unticks `c`. */
  function Toggle(selected: seq<string>, c: string): (next: seq<string>) {
    if c in selected then RemoveAll(selected, c) else selected + [c]
  }

  /** Unticking drops every occurrence of the name and keeps every other
      entry, each as often as before; ticking appends the name at the end. */
  lemma ToggleEffect(selected: seq<string>, c: string)
    ensures c in selected ==> c !in Toggle(selected, c)
    ensures c in selected ==> multiset(Toggle(selected, c)) == multiset(selected)[c := 0]
    ensures c !in selected ==> Toggle(selected, c) == selected + [c]
    ensures c in Toggle(selected, c) <==> c !in selected
  {
    RemoveAllCounts(selected, c);
  }

  /** Ticking a name that was not selected and unticking it again gives the
      selection back, order included. */
  lemma ToggleTwiceRestores(selected: seq<string>, c: string)
    requires c !in selected
    ensures Toggle(Toggle(selected, c), c) == selected
  {
    assert c in selected + [c];
    RemoveAllAppend(selected, [c], c);
    RemoveAllAbsent(selected, c);
    assert RemoveAll([c], c) == [];
  }

  predicate Distinct(xs: seq<string>) {
    forall i, j :: 0 <= i < j < |xs| ==> xs[i] != xs[j]
  }

  lemma {:induction false} RemoveAllDistinct(xs: seq<string>, c: string)
    requires Distinct(xs)
    ensures Distinct(RemoveAll(xs, c))
    decreases |xs|
  {
    if xs != [] {
      assert Distinct(xs[1..]);
      RemoveAllDistinct(xs[1..], c);
      assert xs[0] !in xs[1..];
    }
  }

  /** A selection without duplicates keeps none. */
  lemma ToggleKeepsDistinct(selected: seq<string>, c: string)
    requires Distinct(selected)
    ensures Distinct(Toggle(selected, c))
  {
    if c in selected {
      RemoveAllDistinct(selected, c);
    }
  }

  /** `category: sel.length > 0 ? sel : undefined`. */
  function SelectionSlot(selected: seq<string>): Slot<Category> {
    if |selected| > 0 then Holds(Many(selected)) else Undefined
  }

  /** `inStock: stockFilter`, present even when it is undefined. */
  function StockSlot(stock: Option<bool>): Slot<bool> {
    match stock
    case Some(b) => Holds(b)
    case None => Undefined
  }

  /** Both keys are always present in what the panel emits, so the page's
      merge overwrites both; the category reads as undefined exactly when
      the selection is empty. */
  lemma EmittedKeysPresent(selected: seq<string>, stock: Option<bool>)
    ensures SelectionSlot(selected).IsPresent() && StockSlot(stock).IsPresent()
    ensures SelectionSlot(selected).Read() == if |selected| > 0 then Some(Many(selected)) else None
    ensures StockSlot(stock).Read() == stock
  {
  }

  /** `handleCategoryChange`: the new selection, and the filter call that
      carries it together with the current stock filter. */
  function HandleCategoryChange(p: Panel, c: string): (Panel, Emission) {
    var selected := Toggle(p.selected, c);
    (p.(selected := selected), FilterEmitted(SearchParams(Absent, SelectionSlot(selected), StockSlot(p.stock))))
  }

  // --------------------------------------------------------- stock select

  /** The `<select>` value for a stock filter. */
  function StockToSelect(stock: Option<bool>): string {
    match stock
    case None => ""
    case Some(b) => BoolText(b)
  }

  /** The stock filter for a `<select>` value: `''` is no filter, `'true'`
      is in stock, anything else is out of stock. */
  function StockFromSelect(value: string): Option<bool> {
    if value == "" then None else Some(value == "true")
  }

  /** The three options and the three filter states correspond one to one. */
  lemma StockSelectRoundTrip(stock: Option<bool>, value: string)
    ensures StockFromSelect(StockToSelect(stock)) == stock
    ensures value in {"", "true", "false"} ==> StockToSelect(StockFromSelect(value)) == value
  {
  }

  /** `handleStockFilterChange`: the new stock filter, and the filter call
      that carries it together with the current selection. */
  function HandleStockFilterChange(p: Panel, stock: Option<bool>): (Panel, Emission) {
    (p.(stock := stock), FilterEmitted(SearchParams(Absent, SelectionSlot(p.selected), StockSlot(stock))))
  }

  // ----------------------------------------------------------- clearing

  /** `clearFilters`: the panel empties itself, then calls `onSearch('')`
      and `onFilter({})`. */
  function ClearFilters(p: Panel): (res: (Panel, seq<Emission>)) {
    (Panel("", [], None, p.showFilters), [SearchEmitted(""), FilterEmitted(NoParams)])
  }

  /** `clearFilters` as it is evidently meant: the filter call names both
      keys with `undefined`, so that the page's merge drops them. */
  function ClearFiltersIntended(p: Panel): (res: (Panel, seq<Emission>)) {
    (Panel("", [], None, p.showFilters),
     [SearchEmitted(""), FilterEmitted(SearchParams(Absent, Undefined, Undefined))])
  }

  // ------------------------------------------------------- badge counter

  /** `searchTerm || selectedCategories.length > 0 || stockFilter !== undefined`. */
  predicate HasActiveFilters(p: Panel) {
    Truthy(p.searchTerm) || |p.selected| > 0 || p.stock.Some?
  }

  /** `bs.filter(Boolean).length`: the number of true flags. */
  function CountTrue(bs: seq<bool>): (n: nat)
    ensures n == multiset(bs)[true]
    ensures n <= |bs|
    ensures n > 0 <==> true in bs
    decreases |bs|
  {
    if bs == [] then 0
    else
      assert bs == [bs[0]] + bs[1..];
      (if bs[0] then 1 else 0) + CountTrue(bs[1..])
  }

  /** `[searchTerm, sel.length > 0, stockFilter !== undefined].filter(Boolean).length`. */
  function BadgeCount(p: Panel): nat {
    CountTrue([Truthy(p.searchTerm), |p.selected| > 0, p.stock.Some?])
  }

  /** The badge counts at most three things, and shows a positive number
      exactly when the panel reports active filters. */
  lemma BadgeMatchesActive(p: Panel)
    ensures BadgeCount(p) <= 3
    ensures BadgeCount(p) > 0 <==> HasActiveFilters(p)
  {
    var bs := [Truthy(p.searchTerm), |p.selected| > 0, p.stock.Some?];
    assert true in bs <==> bs[0] || bs[1] || bs[2];
  }

  /** After clearing, nothing is active and the badge is gone; the
      corrected clearing leaves the panel exactly the same. */
  lemma ClearedPanelInactive(p: Panel)
    ensures !HasActiveFilters(ClearFilters(p).0) && BadgeCount(ClearFilters(p).0) == 0
    ensures ClearFilters(p).0.selected == [] && ClearFilters(p).0.stock == None
    ensures ClearFiltersIntended(p).0 == ClearFilters(p).0
  {
  }
}

=== FILE: use_plants.dfy ===
/** The `usePlants` hook: the plant list with its `loading` and `error`
    flags, the query a filter record turns into, and what each completed
    request (a catalog fetch, an add, a purchase) does to the state.

    Every operation of the hook runs in two halves: `Begin` when it is
    called, and a completion function when its response arrives. Responses
    of concurrent operations may arrive in any order, and the hook applies
    each completion to whatever state is current at that moment; there is
    no sequence number. Every completion turns `loading` off; the latest
    successful completion decides the list, failures leave it alone, and
    `error` holds the latest failure since the latest start. */
module UsePlants {
  import opened JsValues
  import opened FormUrlEncoding

  /** A plant as the catalog API returns it. */
  datatype Plant = Plant(
    id: string,
    name: string,
    price: real,
    categories: seq<string>,
    quantity: int,
    description: string,
    image: string,
    difficulty: Option<string>,
    light: string)

  /** The `category` filter: the array of selected names, or one name. */
  datatype Category = Many(names: seq<string>) | One(name: string)

  /** The filter record handed to `fetchPlants`. Each key may be missing,
      hold `undefined`, or hold a value. */
  datatype SearchParams = SearchParams(search: Slot<string>, category: Slot<Category>, inStock: Slot<bool>)

  /** `{}`, the default argument of `fetchPlants`. */
  const NoParams: SearchParams := SearchParams(Absent, Absent, Absent)

  // ------------------------------------------------------------ the query

  /** `if (searchParams.search)`. */
  predicate SendsSearch(p: SearchParams) {
    p.search.Holds? && Truthy(p.search.value)
  }

  /** `if (searchParams.category)`: an array is truthy even when empty, a
      string only when it is not empty. */
  predicate SendsCategory(p: SearchParams) {
    p.category.Holds? && (p.category.value.Many? || Truthy(p.category.value.name))
  }

  /** `if (searchParams.inStock !== undefined)`. */
  predicate SendsInStock(p: SearchParams) {
    p.inStock.Holds?
  }

  /** What `URLSearchParams.append` stores for the category: the array
      joined with `,` in the order given, or the string as it is. */
  function CategoryText(c: Category): (text: string) {
    match c
    case Many(names) => Join(names, ',')
    case One(name) => name
  }

  /** `String(b)` for a boolean. */
  function BoolText(b: bool): string {
    if b then "true" else "false"
  }

  /** The position of a parameter name in the order the hook appends. */
  function Rank(name: string): int {
    if name == "search" then 0 else if name == "category" then 1 else 2
  }

  /** The parameter list `fetchPlants` builds, in the order it appends. */
  function QueryParams(p: SearchParams): (ps: seq<Param>)
    ensures |ps| <= 3
    ensures forall i, j :: 0 <= i < j < |ps| ==> Rank(ps[i].name) < Rank(ps[j].name)
  {
    (if SendsSearch(p) then [Param("search", p.search.value)] else [])
    + (if SendsCategory(p) then [Param("category", CategoryText(p.category.value))] else [])
    + (if SendsInStock(p) then [Param("inStock", BoolText(p.inStock.value))] else [])
  }

  /** `URLSearchParams.prototype.get`: the value of the first entry with the
      name, as the server reads it. */
  function Get(ps: seq<Param>, name: string): (r: Option<string>)
    ensures r.Some? <==> exists i :: 0 <= i < |ps| && ps[i].name == name
    decreases |ps|
  {
    if ps == [] then None
    else if ps[0].name == name then Some(ps[0].value)
    else Get(ps[1..], name)
  }

  lemma {:induction false} GetAppend(a: seq<Param>, b: seq<Param>, name: string)
    ensures Get(a + b, name) == if Get(a, name).Some? then Get(a, name) else Get(b, name)
    decreases |a|
  {
    if a == [] {
      assert a + b == b;
    } else {
      assert (a + b)[0] == a[0];
      assert (a + b)[1..] == a[1..] + b;
      GetAppend(a[1..], b, name);
    }
  }

  /** What the server reads from the query: `search` only when it is a
      non-empty string (whitespace is sent as it is), `category` whenever it
      is truthy (an empty array included), `inStock` whenever it is not
      undefined; no other name is ever sent. */
  lemma QueryReadsBack(p: SearchParams)
    ensures Get(QueryParams(p), "search") == if SendsSearch(p) then Some(p.search.value) else None
    ensures Get(QueryParams(p), "category") == if SendsCategory(p) then Some(CategoryText(p.category.value)) else None
    ensures Get(QueryParams(p), "inStock") == if SendsInStock(p) then Some(BoolText(p.inStock.value)) else None
    ensures forall i :: 0 <= i < |QueryParams(p)| ==> QueryParams(p)[i].name in {"search", "category", "inStock"}
  {
    var a := if SendsSearch(p) then [Param("search", p.search.value)] else [];
    var b := if SendsCategory(p) then [Param("category", CategoryText(p.category.value))] else [];
    var c := if SendsInStock(p) then [Param("inStock", BoolText(p.inStock.value))] else [];
    assert QueryParams(p) == a + (b + c);
    GetAppend(a, b + c, "search");
    GetAppend(a, b + c, "category");
    GetAppend(a, b + c, "inStock");
    GetAppend(b, c, "search");
    GetAppend(b, c, "category");
    GetAppend(b, c, "inStock");
  }

  /** The request URL of a catalog fetch. */
  function PlantsUrl(base: string, p: SearchParams): (url: string)
    ensures QueryParams(p) == [] ==> url == base + "/plants"
    ensures QueryParams(p) != [] ==> url == base + "/plants?" + Serialize(QueryParams(p))
  {
    var q := Serialize(QueryParams(p));
    if q != "" then base + "/plants?" + q else base + "/plants"
  }

  /** The query part of the URL, when there is one, parses back to exactly
      the parameter list; with nothing to send there is no `?` at all. */
  lemma UrlCarriesQuery(base: string, p: SearchParams)
    ensures PlantsUrl(base, p) == base + "/plants" <==> QueryParams(p) == []
    ensures QueryParams(p) != [] ==>
      exists q :: PlantsUrl(base, p) == base + "/plants?" + q && Parse(q) == Some(QueryParams(p))
  {
    var ps := QueryParams(p);
    if ps != [] {
      ParseSerialize(ps);
      var q := Serialize(ps);
      assert PlantsUrl(base, p) == base + "/plants?" + q;
      assert |PlantsUrl(base, p)| > |base + "/plants"|;
    }
  }

  /** With no filters (the call the hook makes on mount, and `refetch`) the
      URL is the bare listing endpoint. */
  lemma NoFiltersBareUrl(base: string)
    ensures PlantsUrl(base, NoParams) == base + "/plants"
  {
  }

  /** A selection whose names hold no comma can be split back from the
      `category` value; the names keep their order. */
  lemma CategoryListRecoverable(names: seq<string>)
    requires |names| >= 1
    requires forall i :: 0 <= i < |names| ==> ',' !in names[i]
    ensures SplitOn(CategoryText(Many(names)), ',') == names
  {
    SplitJoin(names, ',');
  }

  /** An empty category array is still truthy, so it is sent as an empty
      `category` value. */
  lemma EmptyCategoryArraySent(p: SearchParams)
    requires p.category == Holds(Many([]))
    ensures Get(QueryParams(p), "category") == Some("")
  {
    QueryReadsBack(p);
  }

  // ------------------------------------------------------------ the state

  datatype HookState = HookState(plants: seq<Plant>, loading: bool, error: Option<string>)

  const InitialState: HookState := HookState([], false, None)

  /** A response as the hook sees it: a 2xx with its parsed body, a non-2xx
      with the `message` of its JSON body (missing when the body has none),
      or a throw: the network failed or a body was not JSON. */
  datatype Response<+B> = Ok(body: B) | NotOk(message: Option<string>) | Threw(reason: string)

  /** The `data` field of a listing body: the array, or nothing when the
      field is missing or falsy. */
  type ListBody = Option<seq<Plant>>

  /** The body of a successful purchase. */
  datatype PurchaseBody = PurchaseBody(data: Plant, message: Option<string>)

  const FetchFailedMessage: string := "Failed to fetch plants"
  const AddFailedMessage: string := "Failed to add plant"
  const PurchaseFailedMessage: string := "Failed to purchase plant"

  /** `setLoading(true); setError(null)`, how every operation starts. */
  function Begin(s: HookState): (t: HookState)
    ensures t.loading && t.error == None && t.plants == s.plants
  {
    s.(loading := true, error := None)
  }

  /** The `message` of the error a failed catalog fetch throws; the body
      of a non-2xx answer is not read. */
  function FetchFailure<B>(r: Response<B>): (m: string)
    requires !r.Ok?
    ensures r.NotOk? ==> m == FetchFailedMessage
    ensures r.Threw? ==> m == r.reason
  {
    match r
    case NotOk(_) => FetchFailedMessage
    case Threw(reason) => reason
  }

  /** The `message` of the error a failed add or purchase throws: the
      server's message when it has a non-empty one, else the fixed one. */
  function MutationFailure<B>(r: Response<B>, fallback: string): (m: string)
    requires !r.Ok?
    ensures r.NotOk? && r.message.Some? && r.message.value != "" ==> m == r.message.value
    ensures r.NotOk? && (r.message.None? || r.message.value == "") ==> m == fallback
    ensures r.Threw? ==> m == r.reason
  {
    match r
    case NotOk(message) => MessageOr(message, fallback)
    case Threw(reason) => reason
  }

  /** `data.data || []`. */
  function ListOf(body: ListBody): (plants: seq<Plant>)
    ensures body.Some? ==> plants == body.value
    ensures body.None? ==> plants == []
  {
    body.GetOr([])
  }

  /** A catalog fetch completes: success replaces the list wholesale and
      leaves `error` as it is; failure keeps the list and records the
      message. `loading` ends false either way. */
  function FetchDone(s: HookState, r: Response<ListBody>): (t: HookState)
    ensures !t.loading
    ensures r.Ok? ==> t.plants == ListOf(r.body) && t.error == s.error
    ensures !r.Ok? ==> t.plants == s.plants && t.error == Some(FetchFailure(r))
  {
    match r
    case Ok(body) => s.(plants := ListOf(body), loading := false)
    case _ => s.(error := Some(FetchFailure(r)), loading := false)
  }

  /** An add completes. On success the returned plant goes in front of the
      list and is handed back to the caller; on failure the list is kept,
      the message is recorded and the error is rethrown. */
  function AddDone(s: HookState, r: Response<Plant>): (res: (HookState, Outcome<Plant>))
    ensures !res.0.loading
    ensures r.Ok? ==> res.0.plants == [r.body] + s.plants && res.1 == Returned(r.body)
    ensures r.Ok? ==> res.0.error == s.error
    ensures !r.Ok? ==> res.0.plants == s.plants
    ensures !r.Ok? ==> res.1 == Thrown(MutationFailure(r, AddFailedMessage))
    ensures !r.Ok? ==> res.0.error == Some(MutationFailure(r, AddFailedMessage))
  {
    match r
    case Ok(item) => (s.(plants := [item] + s.plants, loading := false), Returned(item))
    case _ =>
      var m := MutationFailure(r, AddFailedMessage);
      (s.(error := Some(m), loading := false), Thrown(m))
  }

  /** `prev.map(plant => plant._id === plantId ? item : plant)`. */
  function ReplaceById(plants: seq<Plant>, id: string, item: Plant): (r: seq<Plant>)
    ensures |r| == |plants|
    ensures forall i :: 0 <= i < |plants| && plants[i].id == id ==> r[i] == item
    ensures forall i :: 0 <= i < |plants| && plants[i].id != id ==> r[i] == plants[i]
    decreases |plants|
  {
    if plants == [] then []
    else [if plants[0].id == id then item else plants[0]] + ReplaceById(plants[1..], id, item)
  }

  /** An id the list does not hold leaves the list as it is. */
  lemma ReplaceUnknownId(plants: seq<Plant>, id: string, item: Plant)
    requires forall i :: 0 <= i < |plants| ==> plants[i].id != id
    ensures ReplaceById(plants, id, item) == plants
  {
  }

  /** Replacing with the returned plant twice is the same as once. */
  lemma ReplaceIdempotent(plants: seq<Plant>, id: string, item: Plant)
    ensures ReplaceById(ReplaceById(plants, id, item), id, item) == ReplaceById(plants, id, item)
  {
  }

  /** When the returned plant keeps its id (as the server's does), the
      positions holding that id are exactly the ones they were. */
  lemma ReplaceKeepsIdPositions(plants: seq<Plant>, id: string, item: Plant)
    requires item.id == id
    ensures forall i :: 0 <= i < |plants| ==>
      (ReplaceById(plants, id, item)[i].id == id <==> plants[i].id == id)
  {
  }

  /** The request of `purchasePlant(plantId, quantity = 1)`. */
  datatype PurchaseRequest = PurchaseRequest(url: string, quantity: int)

  function PurchaseRequestOf(base: string, plantId: string, quantity: Option<int>): (req: PurchaseRequest)
    ensures quantity.None? ==> req.quantity == 1
    ensures quantity.Some? ==> req.quantity == quantity.value
    ensures req.url == base + "/plants/" + plantId + "/purchase"
  {
    PurchaseRequest(base + "/plants/" + plantId + "/purchase", quantity.GetOr(1))
  }

  /** A purchase completes. On success every plant with the id is replaced
      by the returned one and the whole body goes back to the caller; on
      failure the list is kept, the message is recorded and the error is
      rethrown. */
  function PurchaseDone(s: HookState, plantId: string, r: Response<PurchaseBody>)
    : (res: (HookState, Outcome<PurchaseBody>))
    ensures !res.0.loading
    ensures r.Ok? ==> res.0.plants == ReplaceById(s.plants, plantId, r.body.data)
    ensures r.Ok? ==> res.0.error == s.error && res.1 == Returned(r.body)
    ensures !r.Ok? ==> res.0.plants == s.plants
    ensures !r.Ok? ==> res.1 == Thrown(MutationFailure(r, PurchaseFailedMessage))
    ensures !r.Ok? ==> res.0.error == Some(MutationFailure(r, PurchaseFailedMessage))
  {
    match r
    case Ok(body) => (s.(plants := ReplaceById(s.plants, plantId, body.data), loading := false), Returned(body))
    case _ =>
      var m := MutationFailure(r, PurchaseFailedMessage);
      (s.(error := Some(m), loading := false), Thrown(m))
  }

  // ------------------------------------------------------ event sequences

  /** Something that happens to the hook: an operation starts, or one of
      the three kinds of request completes. */
  datatype Event =
    | Started
    | Fetched(listing: Response<ListBody>)
    | Added(created: Response<Plant>)
    | Purchased(plantId: string, purchase: Response<PurchaseBody>)

  function Step(s: HookState, e: Event): HookState {
    match e
    case Started => Begin(s)
    case Fetched(r) => FetchDone(s, r)
    case Added(r) => AddDone(s, r).0
    case Purchased(id, r) => PurchaseDone(s, id, r).0
  }

  /** The state after the events, in the order they happen. */
  function Run(s: HookState, evs: seq<Event>): HookState
    decreases |evs|
  {
    if evs == [] then s else Run(Step(s, evs[0]), evs[1..])
  }

  lemma {:induction false} RunSnoc(s: HookState, evs: seq<Event>, e: Event)
    ensures Run(s, evs + [e]) == Step(Run(s, evs), e)
    decreases |evs|
  {
    if evs != [] {
      assert (evs + [e])[1..] == evs[1..] + [e];
      RunSnoc(Step(s, evs[0]), evs[1..], e);
    }
  }

  /** A completion whose request failed. */
  predicate IsFailure(e: Event) {
    match e
    case Started => false
    case Fetched(r) => !r.Ok?
    case Added(r) => !r.Ok?
    case Purchased(_, r) => !r.Ok?
  }

  /** The message a failed completion records. */
  function FailureMessage(e: Event): string
    requires IsFailure(e)
  {
    match e
    case Fetched(r) => FetchFailure(r)
    case Added(r) => MutationFailure(r, AddFailedMessage)
    case Purchased(_, r) => MutationFailure(r, PurchaseFailedMessage)
  }

  /** A completion whose request succeeded: the only kind that writes the list. */
  predicate IsSuccess(e: Event) {
    !e.Started? && !IsFailure(e)
  }

  /** `loading` is true exactly when the latest event is a start: any
      completion, even of an older request while a newer one is still in
      flight, turns it off. */
  lemma LoadingFollowsLastEvent(s: HookState, evs: seq<Event>)
    requires evs != []
    ensures Run(s, evs).loading <==> evs[|evs| - 1].Started?
  {
    var init := evs[..|evs| - 1];
    assert evs == init + [evs[|evs| - 1]];
    RunSnoc(s, init, evs[|evs| - 1]);
  }

  /** How one event moves `error`: a start clears it, a failure records its
      message, a success leaves it alone. */
  lemma StepError(s: HookState, e: Event)
    ensures e.Started? ==> Step(s, e).error == None
    ensures IsFailure(e) ==> Step(s, e).error == Some(FailureMessage(e))
    ensures IsSuccess(e) ==> Step(s, e).error == s.error
  {
  }

  /** With no failure since the latest start, `error` is null. */
  lemma {:induction false} NoFailureNoError(s: HookState, evs: seq<Event>, k: nat)
    requires k < |evs| && evs[k].Started?
    requires forall j :: k < j < |evs| ==> !evs[j].Started? && !IsFailure(evs[j])
    ensures Run(s, evs).error == None
    decreases |evs|
  {
    var n := |evs| - 1;
    var init := evs[..n];
    assert evs == init + [evs[n]];
    RunSnoc(s, init, evs[n]);
    StepError(Run(s, init), evs[n]);
    if n > k {
      NoFailureNoError(s, init, k);
    }
  }

  /** After the latest start, `error` holds the message of the latest
      failure: a later success does not clear an error that a concurrent
      failure recorded. */
  lemma {:induction false} ErrorIsLatestFailure(s: HookState, evs: seq<Event>, k: nat, j: nat)
    requires k < j < |evs| && evs[k].Started? && IsFailure(evs[j])
    requires forall l :: k < l < |evs| ==> !evs[l].Started?
    requires forall l :: j < l < |evs| ==> !IsFailure(evs[l])
    ensures Run(s, evs).error == Some(FailureMessage(evs[j]))
    decreases |evs|
  {
    var n := |evs| - 1;
    var init := evs[..n];
    assert evs == init + [evs[n]];
    RunSnoc(s, init, evs[n]);
    StepError(Run(s, init), evs[n]);
    if n > j {
      ErrorIsLatestFailure(s, init, k, j);
    }
  }

  /** Events that write nothing to the list leave it as it was. */
  lemma {:induction false} FailuresKeepPlants(s: HookState, evs: seq<Event>)
    requires forall i :: 0 <= i < |evs| ==> !IsSuccess(evs[i])
    ensures Run(s, evs).plants == s.plants
    decreases |evs|
  {
    if evs != [] {
      FailuresKeepPlants(Step(s, evs[0]), evs[1..]);
    }
  }

  /** The latest successful completion decides the list: once a fetch
      succeeds, the list is its listing until another request succeeds,
      whichever request was issued later; failures in between leave it. */
  lemma LatestSuccessfulFetchWins(s: HookState, evs: seq<Event>, j: nat)
    requires j < |evs| && evs[j].Fetched? && evs[j].listing.Ok?
    requires forall l :: j < l < |evs| ==> !IsSuccess(evs[l])
    ensures Run(s, evs).plants == ListOf(evs[j].listing.body)
  {
    var before := evs[..j + 1];
    var after := evs[j + 1..];
    assert evs == before + after;
    RunAppend(s, before, after);
    assert before == evs[..j] + [evs[j]];
    RunSnoc(s, evs[..j], evs[j]);
    FailuresKeepPlants(Run(s, before), after);
  }

  lemma {:induction false} RunAppend(s: HookState, a: seq<Event>, b: seq<Event>)
    ensures Run(s, a + b) == Run(Run(s, a), b)
    decreases |a|
  {
    if a == [] {
      assert a + b == b;
    } else {
      assert (a + b)[0] == a[0];
      assert (a + b)[1..] == a[1..] + b;
      RunAppend(Step(s, a[0]), a[1..], b);
    }
  }

  /** With no supersession, a listing fetched before a purchase but
      delivered after it puts the pre-purchase plant back. */
  lemma StaleListingUndoesPurchase(s: HookState, plantId: string, bought: PurchaseBody, stale: seq<Plant>)
    ensures Step(Step(Step(Step(s, Started), Started), Purchased(plantId, Ok(bought))), Fetched(Ok(Some(stale)))).plants
            == stale
  {
  }
}
